=== FILE: README.md ===
# VideoLoader and ThemeSwitcher in Dafny

A model of the client-side video gallery in `videoloader.js` and of the
light/dark switch in `themeSwitcher.js`. The gallery's `VideoLoader` first
shows two fixed featured entries. It then fetches a catalog, normalises
each entry's identifier (a raw file name, an 11-character YouTube id, or a
YouTube URL) and its thumbnail, and renders one card per entry. A failed
attempt is retried after 1 s, 2 s, 3 s, ..., up to `errorRetries` times,
and after the last one an error view is shown.

Modules:

- `Common`: `Option`, `Result`, prefix/suffix predicates, `Repeat`.
- `Decimal`: decimal printing and parsing of integers. This is the reader
  that the formatters are proved against.
- `Identifiers`: `getVideoId`, with JavaScript's leftmost-match regex
  semantics stated declaratively (`MatchAt`, `IsLeftmost`, `NoMatch`) and
  a scanner proved against them. Also `isYouTubeVideo` and
  `generateThumbnailUrl`.
- `Configuration`: the option defaults of the constructor.
- `Videos`: the catalog entry and the two featured entries.
- `Formatting`: `formatViews` and `getTimeAgo`, each with a parser that
  reads the text back.
- `Escaping`: what `escapeHtml` (assigning to `textContent`, then reading
  `innerHTML`) produces, the attribute-safe variant, and an entity decoder.
- `Catalog`: the `data.videos.map(...)` normalisation, which throws on an
  entry that has neither a thumbnail nor a recognisable identifier.
- `Render`: `createVideoElement`, as a `Card` value holding the player
  link, the two image sources, the escaped texts, the duration badge and
  the summary line. `RenderSafeCard` is the same card with the two `alt`
  attributes escaped in attribute mode.
- `VideoLoader`: the loader as a state machine. `loadVideos` is split at
  its `await`: `LoadVideos` runs up to the fetch and `Settle` handles the
  outcome. Pending `setTimeout` retries form a queue that `FireRetry`
  consumes. The module also proves an invariant of every reachable state.
- `LoaderRuns`: whole sequences of fetch outcomes and the totals they
  produce.
- `Theme`: the theme switcher over a key/value store that stands in for
  `localStorage`.

Fetch outcomes, the current time (as the difference `now - uploadDate` in
milliseconds), `encodeURIComponent` and the stored theme are parameters.

## Model

| member | source | states |
|---|---|---|
| Configuration.MakeConfig | videoloader.js:8-13 | Each option is kept when truthy and otherwise replaced by its default (`videos.json`, `mqdefault`, `video-player.html`, 3). A retry count of 0 also becomes 3. No configured field is ever falsy. |
| Identifiers.FindMatch | videoloader.js:209-216 | The scanner finds a match iff the alternation matches somewhere in the string, and the match it returns is the leftmost one, with the earliest alternative winning at equal positions. |
| Identifiers.Search | videoloader.js:215-216 | `url.match(pattern)?.[1]` is absent exactly when the pattern matches nowhere. Otherwise it is the non-empty greedy run of characters other than `&`, newline, `?` and `#` after the leftmost match. |
| Identifiers.FirstPatternMatch | videoloader.js:214-219 | Trying the patterns in order yields nothing iff no pattern matches anywhere. Any identifier it yields is non-empty and free of `&`, newline, `?` and `#`. |
| Identifiers.GetVideoId | videoloader.js:204-220 | A missing or empty input gives `null`. An 11-character input is returned unchanged. Any identifier returned is non-empty. |
| Identifiers.ShortUrlNeverDecides | videoloader.js:208-217 | The `shortUrl` pattern never changes the result: whenever it matches, `standard` has already matched. Dropping it gives the same function. |
| Identifiers.VideoIdExtraction | videoloader.js:204-220 | Any other non-empty input yields the `standard` capture when that pattern matches, otherwise the `embed` capture when that one matches, and `null` iff neither matches. |
| Identifiers.StandardDecides | videoloader.js:214-216 | The leftmost `standard` match is the result for any input whose length is not 11. |
| Identifiers.WatchUrlDecides | videoloader.js:209 | A URL with any `y`-free host part, then `youtube.com/watch?v=`, then an identifier normalises to that identifier. |
| Identifiers.ShortUrlDecides | videoloader.js:209 | A URL with any `y`-free host part, then `youtu.be/`, then an identifier normalises to that identifier. The first alternative cannot match there. |
| Identifiers.EmbedUrlDecides | videoloader.js:209-216 | A URL with a `y`-free host part, then `youtube.com/embed/`, then a `y`-free identifier normalises to that identifier by way of the third pattern, since `standard` matches nowhere in it. |
| Identifiers.ShortUrlExample | videoloader.js:209 | `https://youtu.be/abc12345678` gives `abc12345678`. |
| Identifiers.WatchUrlExample | videoloader.js:209 | `https://www.youtube.com/watch?v=abc12345678` gives `abc12345678`. |
| Identifiers.EmbedUrlExample | videoloader.js:211 | `https://www.youtube.com/embed/abc12345678` gives `abc12345678` by way of the third pattern. |
| Identifiers.CaptureLengthUnchecked | videoloader.js:205-216 | The captured identifier's length is not checked. `https://youtu.be/abc` gives `abc`, yet `abc` on its own gives `null`. |
| Identifiers.IsYouTubeVideo | videoloader.js:45 | An id is YouTube-style exactly when it has 11 characters and none of them is a dot. Such an id is already a fixed point of `getVideoId`, and an 11-character id that is not YouTube-style contains a dot. |
| Identifiers.GenerateThumbnailUrl | videoloader.js:222-226 | The call fails with `Invalid video ID` exactly when `getVideoId` gives `null`. Otherwise the URL starts with the YouTube image host, ends with `/<quality>.jpg`, and parsing it back gives the normalised identifier. |
| Render.ElevenCharacterNameIsYouTube | videoloader.js:45 | Any 11-character name without a dot is classified as YouTube and left unchanged by normalisation. |
| Render.MediaType | videoloader.js:73 | The flag is `youtube` or `local`, and `youtube` exactly for YouTube-style ids. |
| Render.PlayerUrl | videoloader.js:71-73 | The player link is the page, `?v=`, the raw id, `&title=`, the encoded title and `&type=`, followed by exactly `youtube` or `local`. It ends in `&type=youtube` iff the id is YouTube-style and in `&type=local` iff it is not. |
| Render.RenderCard | videoloader.js:67-104 | Rendering fails (the `null` id's `.length` throws) exactly when the id is absent. A card keeps the featured tag. Its link is the player link for the id and title. Its image sources are the thumbnail and the avatar unchanged. It shows the duration badge with the duration iff the duration is non-empty. Its heading and thumbnail `alt` are both exactly `escapeHtml` of the title, and its author name and avatar `alt` are both exactly `escapeHtml` of the name. They therefore contain no `<`, every `&` in them begins a character reference, and the heading and author name decode back to the title and the name. Each `alt` value, read up to the template's closing quote, decodes to the title or name only up to its first `"`. The summary is the formatted views, the separator and the age. |
| Render.RenderSafeCard | videoloader.js:82-94 | The corrected card fails exactly when the id is absent, and each of its `alt` texts holds no `"` and decodes to the whole title or name. |
| Render.SafeCardDiffersOnlyInAlts | videoloader.js:67-104 | The corrected card equals the card as written except for the two `alt` texts. |
| Render.SafeCardAltsStayInAttribute | videoloader.js:82-94 | For the corrected card, each `alt` value read back is the whole title or name, whatever markup follows the closing quote. |
| Render.FeaturedVideosPlayLocally | videoloader.js:16-45 | Both featured entries are routed to the local player. |
| Formatting.ReadTenthsDeterminesText | videoloader.js:173-176 | The tenths reader accepts only what `toFixed(1)` prints: any text it reads is the printed form of the value read. |
| Formatting.ReadViewsDeterminesText | videoloader.js:172-179 | The views reader accepts only labels the formatter can print (no leading zeros, no `-0`): any label it reads is the printed form of the count read. |
| Formatting.FormatViews | videoloader.js:172-179 | Reading the text back gives the count itself below 1000. From 1000 up it gives the tenths of thousands nearest to `n/1000`, and from 10^6 up the tenths of millions nearest to `n/10^6`. The text always ends in ` views`. |
| Formatting.ViewsPlainExample | videoloader.js:178 | 500 gives `500 views`. |
| Formatting.ViewsThousandsExample | videoloader.js:175-176 | 1500 gives `1.5K views`. |
| Formatting.ViewsMillionsExample | videoloader.js:173-174 | 2500000 gives `2.5M views`. |
| Formatting.ViewsJustBelowAMillion | videoloader.js:175-176 | 999999 rounds up inside the thousands branch and prints `1000.0K views`. |
| Formatting.DaysAgo | videoloader.js:190-191 | The day count is the ceiling of the absolute difference in days: the smallest whole number of days that covers the absolute difference. |
| Formatting.AgeOf | videoloader.js:193-201 | Fewer than 30 days are counted in days, fewer than 365 in whole 30-day months (1 to 12), and the rest in whole 365-day years (at least 1). |
| Formatting.ReadAgeDeterminesText | videoloader.js:193-201 | The age reader accepts only labels `getTimeAgo` can print (no leading zeros, singular exactly for one month or year): any label it reads is the printed form of the age read. |
| Formatting.AgeTextPlural | videoloader.js:193-201 | A label ends in `s ago` exactly for days and for more than one month or year. |
| Formatting.GetTimeAgo | videoloader.js:187-202 | The text reads back as the age bucket of the difference. It ends in `s ago` iff the unit is days or the count is not 1. |
| Formatting.AgeTenDays | videoloader.js:193-194 | Ten days ago reads `10 days ago`. |
| Formatting.AgeSixtyDays | videoloader.js:190-197 | A date 60 days in the future still reads `2 months ago`, because of the absolute value. |
| Formatting.AgeFourHundredDays | videoloader.js:198-200 | 400 days reads `1 year ago`, in the singular. |
| Formatting.AgeDaysAlwaysPlural | videoloader.js:193-194 | The day branch never drops the plural: `0 days ago`, `1 days ago`. |
| Escaping.EscapeChar | videoloader.js:181-185 | A character is replaced by itself exactly when it is not special (`&`, no-break space, `<`, `>`, and `"` in attribute mode). No replacement holds `<`, `>` or a no-break space; in attribute mode none holds `"`, and in text mode only `"` itself does. |
| Escaping.EscapeCharAmpersands | videoloader.js:181-185 | A special character's replacement is a single character reference, and every `&` in any replacement begins one. |
| Escaping.UnescapeEscapedChar | videoloader.js:181-185 | Decoding a replacement followed by any text gives the character back and continues with that text. |
| Escaping.Escape | videoloader.js:181-185 | The escaped text holds no `<`, `>` or no-break space. The attribute variant also holds no `"`. The text variant holds `"` iff the input does (`EscapeTextQuoteCount` counts them). Every `&` in it begins a character reference. Decoding the entities gives the input back. |
| Escaping.EscapeHtml | videoloader.js:181-185 | `escapeHtml` leaves no `<`, `>` or no-break space and decodes back to its input. Every `&` it leaves begins a character reference. Its output contains `"` exactly when the input does. |
| Escaping.EscapeTextQuoteCount | videoloader.js:181-185 | Text-mode escaping keeps every `"`: the escaped text holds exactly as many as the input. |
| Escaping.EscapeHtmlKeepsQuotes | videoloader.js:181-185 | `escapeHtml` output holds exactly as many `"` characters as its input: none is encoded, none is added. |
| Escaping.EscapeAttribute | videoloader.js:181-185 | The corrected escaper for attribute values. Its output holds no `"`, `<`, `>` or no-break space, every `&` in it begins a character reference, and it decodes back to the input. |
| Escaping.ScriptTitleIsInert | videoloader.js:98-100 | A title starting with `<script>` contains no `<` once escaped and decodes back unchanged. |
| Escaping.QuotedValueOfEscapedText | videoloader.js:181-185 | Text-mode escaping commutes with reading an attribute value: the value read from escaped text is the escaped value of the text. |
| Escaping.EscapeHtmlBreaksOutOfAttribute | videoloader.js:82-84 | For every title containing `"`, the attribute value that an HTML parser reads from `alt="${safeTitle}"` is only the part of the title before its first quote. It is therefore not the title. |
| Escaping.AttributeValueOfEscapedText | videoloader.js:82-94 | The value read from `alt="${escapeHtml(t)}"` decodes to the text up to its first `"`, which is the whole text exactly when it holds no `"`. |
| Escaping.EscapeAttributeStaysInAttribute | videoloader.js:82-84 | With the corrected escaper, the attribute value read back is always exactly the title. |
| Catalog.NormalizeEntry | videoloader.js:127-131 | The entry fails with `Invalid video ID` iff it has no thumbnail and no recognisable id. Otherwise its id is the normalised one and its thumbnail is kept if present, else generated for that id. All other fields are unchanged. |
| Catalog.NormalizeCatalog | videoloader.js:127-131 | The map fails iff some entry fails. Otherwise it has one normalised entry per input entry, in order. |
| Catalog.CatalogAbortsOnlyOnMissingThumbnail | videoloader.js:127-131 | The map succeeds iff every entry has a thumbnail or a recognisable id. |
| VideoLoader.New | videoloader.js:2-47 | A new loader's configuration is the options with their defaults filled in (`MakeConfig`), so its retry count is never 0. Its container keeps whatever it held and its featured list is the two fixed entries. Nothing is loading or scheduled, the attempt is 0 and there is no catalog data. |
| VideoLoader.RenderConstantVideos | videoloader.js:56-65 | The container is replaced by the featured entries in order, whatever it held. Nothing else changes. |
| VideoLoader.LoadVideos | videoloader.js:110-118 | A call while a fetch is in flight does nothing. Otherwise it sets the flag, records the retry count and appends one placeholder, and nothing else changes. |
| VideoLoader.LoadingIndex | videoloader.js:150 | `querySelector('.loading')` finds the first placeholder, provided no card holds an element of class `loading`. Nothing before the index found is a placeholder. |
| VideoLoader.RemoveFirstLoading | videoloader.js:149-153 | Without a placeholder the container is unchanged. With one, it shrinks by exactly one element. |
| VideoLoader.RemoveFirstLoadingCutsFirst | videoloader.js:149-153 | The element cut out is a placeholder with no placeholder before it, and everything else is kept in order. |
| VideoLoader.Initialize | videoloader.js:49-65 | The container becomes the featured entries, followed by one placeholder unless a fetch is already in flight. A fetch is then in flight, and a fresh one starts at attempt 0. The configuration, catalog data and timers are unchanged. |
| VideoLoader.Recover | videoloader.js:134-145 | The `catch`/`finally` blocks clear the flag. Below the limit they schedule one retry after `1000 * (retryCount + 1)` ms for attempt `retryCount + 1`, keeping the container. At the limit they append the error view and schedule nothing. The configuration, catalog data and attempt are unchanged. |
| VideoLoader.RenderablePrefix | videoloader.js:156-159 | `forEach` renders the longest prefix of entries whose id is present, and stops at the first absent one. |
| VideoLoader.Settle | videoloader.js:120-145 | After any outcome nothing is loading, the configuration and attempt are unchanged, and at most one retry has been added, only when the attempt is below the limit. |
| VideoLoader.FireRetry | videoloader.js:139 | The earliest timer is consumed and starts its attempt with a new placeholder. |
| VideoLoader.FailureSchedulesRetry | videoloader.js:134-145 | Below the limit, a failure schedules a retry after `1000 * (retryCount + 1)` ms and leaves the container alone. At the limit it appends the error view and schedules nothing. |
| VideoLoader.UnnormalisableCatalogIsAFailure | videoloader.js:127-142 | A catalog whose normalisation throws is handled exactly like a failed fetch. |
| VideoLoader.SuccessRendersCatalog | videoloader.js:126-160 | On success `videosData` becomes the normalised catalog, the first placeholder is removed and the dynamic entries are appended in order. |
| VideoLoader.RenderCrashIsAFailure | videoloader.js:127-158 | An entry whose id is absent but whose thumbnail is present stops rendering there. The cards before it stay, `videosData` is already replaced and the placeholder is gone, and the attempt then counts as a failure. |
| VideoLoader.InitializeEstablishesInv | videoloader.js:49-54 | `initialize` shows the featured entries and one placeholder and starts attempt 0, in a state satisfying the invariant. |
| VideoLoader.SettlePreservesInv | videoloader.js:110-146 | Settling any outcome keeps the invariant. The invariant says: the featured entries come first and appear nowhere else, at most one retry is pending and none while a fetch is in flight, and each pending delay is `1000 * attempt` with the attempt in `1..errorRetries`. |
| VideoLoader.FireRetryPreservesInv | videoloader.js:137-139 | A firing retry keeps the invariant and starts the next attempt with one more placeholder. |
| VideoLoader.FeaturedBeforeDynamic | videoloader.js:49-65 | In every state satisfying the invariant, the featured entries lead the container in their fixed order and precede every dynamic entry. |
| LoaderRuns.Run | videoloader.js:110-146 | A run settles at most one attempt per outcome and records at most one delay per attempt. |
| LoaderRuns.RunPreservesInv | videoloader.js:110-146 | A whole run of any outcomes keeps the invariant, so the featured entries stay first whatever the fetches return. |
| LoaderRuns.Attempt | videoloader.js:120-146 | One attempt settles, and only a scheduled retry lets the run continue: it counts between 1 and one more than the remaining outcomes. |
| LoaderRuns.RetryState | videoloader.js:134-139 | A failed attempt below the limit, once its timer fires, leaves the same state one attempt later with one more placeholder. |
| LoaderRuns.FailuresPrefix | videoloader.js:110-146 | `f` failures within the limit, followed by any outcomes, are `f` settled attempts with delays of 1 s, 2 s, ..., `f` s after the current attempt, and then the run of the rest from the state `f` attempts later with `f` more placeholders. |
| LoaderRuns.FailingRun | videoloader.js:134-144 | From any attempt, a fetch that keeps failing makes one settled attempt per remaining retry plus one. The delays grow by a second each time, and one placeholder per retry is left before the error view. |
| LoaderRuns.FailuresThenSuccessRun | videoloader.js:110-160 | `f` failures within the limit and then a good catalog make `f + 1` attempts with delays of 1 s, 2 s, ..., and render the catalog after the first placeholder has been removed. |
| LoaderRuns.AlwaysFailingFetch | videoloader.js:137-142 | From a new loader built from any options, with `R` the configured retry count (0 when it is negative, which `||` keeps because it is truthy), a fetch that always fails makes `R + 1` attempts with waits of 1, 2, ..., R seconds. The run ends with the featured entries, `R + 1` placeholders and the error view. |
| LoaderRuns.ThreeRetriesMeanFourAttempts | videoloader.js:137-139 | With the retry option absent, 0 or 3 (line 12 turns the first two into 3), a fetch that always fails makes four attempts with waits of 1000, 2000 and 3000 ms. |
| LoaderRuns.FailuresLeavePlaceholders | videoloader.js:148-153 | From a new loader built from any options, after `f` failures within the configured limit and then a success, `f` placeholders remain between the featured and the dynamic entries. |
| Theme.Icon | themeSwitcher.js:34-39 | The button shows `light_mode` iff the theme is dark, and `dark_mode` otherwise. |
| Theme.Construct | themeSwitcher.js:2-10 | The stored theme is used when non-empty, otherwise light. The attribute and icon agree with it, and the store is untouched. |
| Theme.Toggle | themeSwitcher.js:12-18 | Light becomes dark and anything else becomes light. The new theme is written to the attribute, the icon and the `theme` key. Every other stored key is unchanged. |
| Theme.ToggleTwice | themeSwitcher.js:13 | Toggling twice restores a light or dark theme. |
| Theme.UnknownThemeFallsBackToLight | themeSwitcher.js:3-13 | A stored theme that is neither light nor dark is shown once. The first toggle then goes to light. |
| Theme.ToggleIsRemembered | themeSwitcher.js:12-16 | Constructing from the store a toggle leaves behind gives exactly the toggled state. |

## Left out

- The DOM, `fetch`, `response.json()`, `setTimeout`, `localStorage`,
  `console` and the `DOMContentLoaded` bootstraps (videoloader.js:250-259,
  themeSwitcher.js:48-51). Fetch outcomes are inputs, timers are a queue,
  and the store is a map.
- The constructor's missing-container error (videoloader.js:3-6). There is
  no document to look the container up in, so `New` takes the container's
  initial contents.
- `new Date(...)` and the clock. `getTimeAgo` takes `now - uploadDate` in
  milliseconds, and an unparsable date (NaN) is not modelled.
- `encodeURIComponent`, which is a function parameter of the player URL.
- The click listeners and their logging (videoloader.js:228-247), which
  change no state.
- The theme button's creation and insertion (themeSwitcher.js:19-32). If
  `.header__icons` is missing the constructor throws, which is not modelled.
- The error view's "Try Again" button (videoloader.js:167). Its inline
  handler calls `this.loadVideos()` with `this` bound to the button, so it
  throws a TypeError and never reloads. The model's error view has no
  retry action.
- VideoLoader.LoadingIndex: cards are opaque items, so a `loading`-classed
  element inside an earlier card is not modelled. `querySelector('.loading')`
  (videoloader.js:150) searches every descendant in document order. Such an
  element can come from a duration, which line 87 inserts unescaped, or
  from a title that breaks out of `alt` (see Findings). Then the source
  removes that element instead of the placeholder. `RemoveFirstLoading`,
  `SuccessRendersCatalog`, `RenderCrashIsAFailure` and
  `FailuresLeavePlaceholders` assume no card holds one.
- Catalog fields of other JSON types than the ones declared (non-string
  ids, a missing `author` or `views`), and the length of a string in UTF-16
  units rather than characters.
- Formatting.FormatViews: rounds exact ties (`n % 100 == 50` in the
  thousands branch, `n % 100000 == 50000` in the millions branch) up.
  `toFixed(1)` on binary doubles may round some of them down. Counts large
  enough that `toFixed` switches to exponential notation are not modelled.
- Formatting.DaysAgo: exact integer ceiling. Floating-point division only
  differs for differences far beyond any real date.
- Some behaviour of the code that a reader might not expect, modelled as
  the code has it:
  - there is no space between the number and `K`/`M` (`1.5K views`);
  - the retry delay grows linearly (1 s, 2 s, 3 s);
  - only the first placeholder is ever removed, so after failed attempts
    one placeholder per failed attempt stays in the container;
  - the summary separator is the byte sequence `â€¢` (a UTF-8 bullet read
    as Windows-1252), as it stands in videoloader.js:101.

## Findings

| source | as written | input that shows it | evidently intended | confidence | as-written member | corrected member |
|---|---|---|---|---|---|---|
| videoloader.js:84 | `escapeHtml` (lines 181-185) does not encode `"`, yet its result is placed inside `alt="..."` on lines 84 and 94 | a title `x" onerror="alert(1)`: the `alt` value ends at the first `"` and `onerror` becomes a new attribute | attribute values escaped with `"` encoded as `&quot;`, so that the value read back is exactly the title | high (not executed) | Escaping.EscapeHtmlBreaksOutOfAttribute | Render.RenderSafeCard |

=== FILE: catalog.dfy ===
/** The per-entry normalisation of the fetched catalog (videoloader.js
    lines 127-131): every entry keeps its fields, its `id` is replaced by
    the normalised identifier (possibly `null`), and a missing thumbnail is
    derived from the original identifier. Deriving a thumbnail for an
    identifier that cannot be normalised throws, which aborts the whole
    `map`. */
module Catalog {
  import opened Common
  import opened Identifiers
  import opened Videos

  /** The callback of `data.videos.map(...)` for one entry. */
  function NormalizeEntry(quality: string, v: Video): (r: Result<Video>)
    ensures r.Err? <==> v.thumbnail == "" && GetVideoId(v.id).None?
    ensures r.Err? ==> r.message == "Invalid video ID"
    ensures r.Ok? ==> r.value.id == GetVideoId(v.id)
    ensures r.Ok? ==> r.value.thumbnail != ""
    ensures r.Ok? && v.thumbnail != "" ==> r.value.thumbnail == v.thumbnail
    ensures r.Ok? && v.thumbnail == "" ==> ThumbnailId(r.value.thumbnail, quality) == GetVideoId(v.id)
    ensures r.Ok? ==> r.value.(id := v.id, thumbnail := v.thumbnail) == v
  {
    var id := GetVideoId(v.id);
    if v.thumbnail != "" then Ok(v.(id := id))
    else
      match GenerateThumbnailUrl(v.id, quality)
      case Err(e) => Err(e)
      case Ok(url) =>
        assert StartsWith(url, ThumbnailHost) && |url| >= |ThumbnailHost|;
        Ok(v.(id := id, thumbnail := url))
  }

  /** `data.videos.map(...)`: the normalised list in the same order, or the
      error of the first entry whose thumbnail cannot be derived. */
  function NormalizeCatalog(quality: string, vs: seq<Video>): (r: Result<seq<Video>>)
    ensures r.Err? <==> exists i :: 0 <= i < |vs| && NormalizeEntry(quality, vs[i]).Err?
    ensures r.Ok? ==> |r.value| == |vs|
    ensures r.Ok? ==> forall i :: 0 <= i < |vs| ==> NormalizeEntry(quality, vs[i]) == Ok(r.value[i])
  {
    if vs == [] then Ok([])
    else
      match NormalizeEntry(quality, vs[0])
      case Err(e) => Err(e)
      case Ok(head) =>
        match NormalizeCatalog(quality, vs[1..])
        case Err(e) =>
          var i :| 0 <= i < |vs[1..]| && NormalizeEntry(quality, vs[1..][i]).Err?;
          assert vs[i + 1] == vs[1..][i];
          Err(e)
        case Ok(tail) =>
          assert forall i :: 1 <= i < |vs| ==> vs[i] == vs[1..][i - 1];
          Ok([head] + tail)
  }

  /** A catalog normalises exactly when every entry without a thumbnail has
      an identifier `getVideoId` accepts; the identifiers of entries that
      keep their thumbnail are not checked and may come out `null`. */
  lemma CatalogAbortsOnlyOnMissingThumbnail(quality: string, vs: seq<Video>)
    ensures NormalizeCatalog(quality, vs).Ok? <==>
      forall i :: 0 <= i < |vs| && vs[i].thumbnail == "" ==> GetVideoId(vs[i].id).Some?
  {
  }
}

=== FILE: common.dfy ===
/** Failure-carrying wrappers shared by every module of the model.
    `Option` stands for JavaScript's `null`/`undefined`-or-value, and
    `Result` for a computation that either returns or throws an `Error`
    with a message. */
module Common {

  datatype Option<+T> = None | Some(value: T)

  datatype Result<+T> = Ok(value: T) | Err(message: string)

  /** `s` begins with `p`. */
  predicate StartsWith(s: string, p: string) {
    |p| <= |s| && s[..|p|] == p
  }

  /** `s` ends with `p`. */
  predicate EndsWith(s: string, p: string) {
    |p| <= |s| && s[|s| - |p|..] == p
  }

  /** `n` copies of `x`. */
  function Repeat<T>(x: T, n: nat): (r: seq<T>)
    ensures |r| == n
    ensures forall i :: 0 <= i < n ==> r[i] == x
  {
    seq(n, _ => x)
  }
}

=== FILE: configuration.dfy ===
/** The loader's configuration (videoloader.js lines 8-13). Each field is
    taken from the options bag with JavaScript's `||`: a falsy option (an
    absent field, the empty string, the number 0) falls back to the
    default. */
module Configuration {
  import opened Common

  datatype Options = Options(
    videoEndpoint: Option<string>,
    thumbnailQuality: Option<string>,
    playerPage: Option<string>,
    errorRetries: Option<int>)

  datatype Config = Config(
    videoEndpoint: string,
    thumbnailQuality: string,
    playerPage: string,
    errorRetries: int)

  const DefaultEndpoint: string := "videos.json"
  const DefaultQuality: string := "mqdefault"
  const DefaultPlayerPage: string := "video-player.html"
  const DefaultRetries: int := 3

  predicate TruthyString(o: Option<string>) {
    o.Some? && o.value != ""
  }

  predicate TruthyNumber(o: Option<int>) {
    o.Some? && o.value != 0
  }

  /** `option || fallback` for a string option. */
  function OrString(o: Option<string>, fallback: string): string {
    if TruthyString(o) then o.value else fallback
  }

  /** The constructor's `this.config`: truthy options are kept, every other
      field takes its default, so no field of the result is falsy. */
  function MakeConfig(o: Options): (c: Config)
    ensures c.videoEndpoint != "" && c.thumbnailQuality != "" && c.playerPage != "" && c.errorRetries != 0
    ensures TruthyString(o.videoEndpoint) ==> c.videoEndpoint == o.videoEndpoint.value
    ensures !TruthyString(o.videoEndpoint) ==> c.videoEndpoint == "videos.json"
    ensures TruthyString(o.thumbnailQuality) ==> c.thumbnailQuality == o.thumbnailQuality.value
    ensures !TruthyString(o.thumbnailQuality) ==> c.thumbnailQuality == "mqdefault"
    ensures TruthyString(o.playerPage) ==> c.playerPage == o.playerPage.value
    ensures !TruthyString(o.playerPage) ==> c.playerPage == "video-player.html"
    ensures TruthyNumber(o.errorRetries) ==> c.errorRetries == o.errorRetries.value
    ensures o.errorRetries == Some(0) || o.errorRetries.None? ==> c.errorRetries == 3
  {
    Config(
      OrString(o.videoEndpoint, DefaultEndpoint),
      OrString(o.thumbnailQuality, DefaultQuality),
      OrString(o.playerPage, DefaultPlayerPage),
      if TruthyNumber(o.errorRetries) then o.errorRetries.value else DefaultRetries)
  }
}

=== FILE: decimal.dfy ===
/** Decimal rendering of integers, as JavaScript's template literals print
    them, together with the matching parser used to state round trips. */
module Decimal {

  predicate IsDigit(c: char) {
    '0' <= c <= '9'
  }

  predicate AllDigits(s: string) {
    forall i :: 0 <= i < |s| ==> IsDigit(s[i])
  }

  function DigitValue(c: char): (d: nat)
    requires IsDigit(c)
    ensures d < 10
  {
    c as int - '0' as int
  }

  function DigitChar(d: nat): (c: char)
    requires d < 10
    ensures IsDigit(c) && DigitValue(c) == d
  {
    ('0' as int + d) as char
  }

  /** A digit string as `NatToString` prints it: non-empty, and no leading
      zero unless it is `0` itself. */
  predicate Canonical(s: string) {
    s != [] && AllDigits(s) && (s[0] == '0' ==> |s| == 1)
  }

  /** The number a string of decimal digits denotes (most significant first). */
  function ParseNat(s: string): nat
    requires AllDigits(s)
  {
    if s == [] then 0 else 10 * ParseNat(s[..|s| - 1]) + DigitValue(s[|s| - 1])
  }

  /** The shortest decimal rendering of `n`: no sign, no leading zero. */
  function NatToString(n: nat): (s: string)
    ensures Canonical(s)
    ensures s[0] == '0' ==> s == "0"
    ensures ParseNat(s) == n
  {
    if n < 10 then [DigitChar(n)]
    else
      var s := NatToString(n / 10) + [DigitChar(n % 10)];
      assert s[..|s| - 1] == NatToString(n / 10);
      s
  }

  /** `${n}` for an integer `n`. */
  function IntToString(n: int): (s: string)
    ensures 1 <= |s|
    ensures n >= 0 ==> AllDigits(s) && ParseNat(s) == n
    ensures n < 0 ==> s[0] == '-' && AllDigits(s[1..]) && ParseNat(s[1..]) == -n
  {
    if n < 0 then "-" + NatToString(-n) else NatToString(n)
  }

  /** Length of the longest all-digit prefix of `s`. */
  function DigitPrefix(s: string): (k: nat)
    ensures k <= |s| && AllDigits(s[..k])
    ensures k < |s| ==> !IsDigit(s[k])
  {
    if s == [] || !IsDigit(s[0]) then 0
    else
      var k := 1 + DigitPrefix(s[1..]);
      assert s[..k] == [s[0]] + s[1..][..k - 1];
      k
  }

  /** A digit string followed by something that does not start with a digit
      is split back exactly at the boundary. */
  lemma DigitPrefixOfConcat(d: string, rest: string)
    requires AllDigits(d)
    requires rest == [] || !IsDigit(rest[0])
    ensures DigitPrefix(d + rest) == |d|
    ensures (d + rest)[..|d|] == d && (d + rest)[|d|..] == rest
  {
    var s := d + rest;
    var k := DigitPrefix(s);
    assert forall i :: 0 <= i < |d| ==> s[i] == d[i];
    assert |d| < |s| ==> s[|d|] == rest[0];
  }

  /** A digit string without a leading zero denotes a positive number. */
  lemma {:induction false} ParseNatPositive(s: string)
    requires AllDigits(s) && s != [] && s[0] != '0'
    ensures ParseNat(s) > 0
    decreases |s|
  {
    if |s| > 1 {
      ParseNatPositive(s[..|s| - 1]);
    }
  }

  /** Printing is the inverse of parsing on canonical digit strings, so a
      canonical digit string is determined by the number it denotes. */
  lemma {:induction false} CanonicalRoundTrip(s: string)
    requires Canonical(s)
    ensures NatToString(ParseNat(s)) == s
    decreases |s|
  {
    var d := DigitValue(s[|s| - 1]);
    assert DigitChar(d) == s[|s| - 1];
    if |s| == 1 {
      assert ParseNat(s) == d;
    } else {
      var p := s[..|s| - 1];
      assert p[0] == s[0];
      ParseNatPositive(p);
      CanonicalRoundTrip(p);
      var n := ParseNat(s);
      assert n == 10 * ParseNat(p) + d;
      assert n / 10 == ParseNat(p) && n % 10 == d;
      assert s == p + [s[|s| - 1]];
    }
  }
}

=== FILE: escaping.dfy ===
/** HTML escaping. `escapeHtml` (videoloader.js lines 181-185) assigns the
    string to a detached element's `textContent` and reads `innerHTML`
    back, which is the HTML fragment serialisation algorithm applied to a
    single text node (WHATWG HTML Living Standard, section 13.3
    "Serializing HTML fragments", "escaping a string" outside attribute
    mode): `&`, U+00A0, `<` and `>` become character references and
    nothing else changes. `EscapeAttribute` is the attribute-mode variant,
    which also escapes `"`. */
module Escaping {
  import opened Common

  const Nbsp: char := '\U{00A0}'

  /** Whether a character reference the escaper emits starts at `i`. */
  predicate ReferenceAt(r: string, i: nat)
    requires i <= |r|
  {
    StartsWith(r[i..], "&amp;") || StartsWith(r[i..], "&lt;") || StartsWith(r[i..], "&gt;")
    || StartsWith(r[i..], "&nbsp;") || StartsWith(r[i..], "&quot;")
  }

  /** Every `&` of the text begins a character reference: no bare `&` is
      left for a parser to misread. */
  predicate AmpersandsAreReferences(r: string) {
    forall i :: 0 <= i < |r| && r[i] == '&' ==> ReferenceAt(r, i)
  }

  /** Special characters are the ones the serialiser replaces. */
  predicate IsSpecial(c: char, attributeMode: bool) {
    c == '&' || c == Nbsp || c == '<' || c == '>' || (attributeMode && c == '"')
  }

  /** The replacement text of one character: an ordinary character stands
      for itself, a special one becomes a reference that contains none of
      the characters the mode escapes. */
  function EscapeChar(c: char, attributeMode: bool): (e: string)
    ensures '<' !in e && '>' !in e && Nbsp !in e
    ensures attributeMode ==> '"' !in e
    ensures !attributeMode ==> ('"' in e <==> c == '"')
    ensures e == [c] <==> !IsSpecial(c, attributeMode)
  {
    if c == '&' then "&amp;"
    else if c == Nbsp then "&nbsp;"
    else if c == '<' then "&lt;"
    else if c == '>' then "&gt;"
    else if attributeMode && c == '"' then "&quot;"
    else [c]
  }

  /** Decodes the five character references the escaper emits; anything
      else, including a lone `&`, is kept as it is. */
  function Unescape(s: string): string
    decreases |s|
  {
    if s == [] then []
    else if StartsWith(s, "&amp;") then "&" + Unescape(s[5..])
    else if StartsWith(s, "&nbsp;") then [Nbsp] + Unescape(s[6..])
    else if StartsWith(s, "&lt;") then "<" + Unescape(s[4..])
    else if StartsWith(s, "&gt;") then ">" + Unescape(s[4..])
    else if StartsWith(s, "&quot;") then "\"" + Unescape(s[6..])
    else [s[0]] + Unescape(s[1..])
  }

  lemma DiffersAt(s: string, p: string, j: nat)
    requires j < |p| && j < |s| && s[j] != p[j]
    ensures !StartsWith(s, p)
  {
    if |p| <= |s| {
      assert s[..|p|][j] == s[j];
    }
  }

  /** Decoding an escaped character in front of any text gives the
      character back and continues with that text. */
  lemma UnescapeEscapedChar(c: char, attributeMode: bool, rest: string)
    ensures Unescape(EscapeChar(c, attributeMode) + rest) == [c] + Unescape(rest)
  {
    var e := EscapeChar(c, attributeMode);
    var s := e + rest;
    assert s[|e|..] == rest;
    if !IsSpecial(c, attributeMode) {
      assert s[0] == c && c != '&';
      DiffersAt(s, "&amp;", 0);
      DiffersAt(s, "&nbsp;", 0);
      DiffersAt(s, "&lt;", 0);
      DiffersAt(s, "&gt;", 0);
      DiffersAt(s, "&quot;", 0);
    } else {
      assert s[..|e|] == e;
      if c == Nbsp {
        DiffersAt(s, "&amp;", 1);
      } else if c == '<' {
        DiffersAt(s, "&amp;", 1);
        DiffersAt(s, "&nbsp;", 1);
      } else if c == '>' {
        DiffersAt(s, "&amp;", 1);
        DiffersAt(s, "&nbsp;", 1);
        DiffersAt(s, "&lt;", 1);
      } else if c == '"' {
        DiffersAt(s, "&amp;", 1);
        DiffersAt(s, "&nbsp;", 1);
        DiffersAt(s, "&lt;", 1);
        DiffersAt(s, "&gt;", 1);
      }
    }
  }

  /** A special character's replacement is one reference, and an ordinary
      character is not `&`: either way every `&` begins a reference. */
  lemma EscapeCharAmpersands(c: char, attributeMode: bool)
    ensures IsSpecial(c, attributeMode) ==> ReferenceAt(EscapeChar(c, attributeMode), 0)
    ensures AmpersandsAreReferences(EscapeChar(c, attributeMode))
  {
    var e := EscapeChar(c, attributeMode);
    if IsSpecial(c, attributeMode) {
      assert e[0] == '&';
      forall i | 0 < i < |e|
        ensures e[i] != '&'
      {
      }
    }
  }

  lemma StartsWithExtends(s: string, t: string, p: string)
    requires StartsWith(s, p)
    ensures StartsWith(s + t, p)
  {
    assert (s + t)[..|p|] == s[..|p|];
  }

  /** Joining two texts whose ampersands all begin references keeps that
      property. */
  lemma AmpersandsConcat(a: string, b: string)
    requires AmpersandsAreReferences(a) && AmpersandsAreReferences(b)
    ensures AmpersandsAreReferences(a + b)
  {
    var s := a + b;
    forall i | 0 <= i < |s| && s[i] == '&'
      ensures ReferenceAt(s, i)
    {
      if i < |a| {
        assert s[i..] == a[i..] + b;
        assert a[i] == '&';
        if StartsWith(a[i..], "&amp;") { StartsWithExtends(a[i..], b, "&amp;"); }
        else if StartsWith(a[i..], "&lt;") { StartsWithExtends(a[i..], b, "&lt;"); }
        else if StartsWith(a[i..], "&gt;") { StartsWithExtends(a[i..], b, "&gt;"); }
        else if StartsWith(a[i..], "&nbsp;") { StartsWithExtends(a[i..], b, "&nbsp;"); }
        else { StartsWithExtends(a[i..], b, "&quot;"); }
      } else {
        assert s[i..] == b[i - |a|..];
        assert b[i - |a|] == '&';
      }
    }
  }

  /** One step of the serialiser: every property of an escaped tail
      carries over to the tail behind one more escaped character. */
  lemma EscapeStep(c: char, attributeMode: bool, rest: string, tail: string)
    requires '<' !in tail && '>' !in tail && Nbsp !in tail
    requires attributeMode ==> '"' !in tail
    requires !attributeMode ==> ('"' in tail <==> '"' in rest)
    requires |tail| >= |rest|
    requires Unescape(tail) == rest
    requires AmpersandsAreReferences(tail)
    ensures var r := EscapeChar(c, attributeMode) + tail;
      && '<' !in r && '>' !in r && Nbsp !in r
      && (attributeMode ==> '"' !in r)
      && (!attributeMode ==> ('"' in r <==> '"' in [c] + rest))
      && |r| >= |[c] + rest|
      && Unescape(r) == [c] + rest
      && AmpersandsAreReferences(r)
  {
    UnescapeEscapedChar(c, attributeMode, tail);
    EscapeCharAmpersands(c, attributeMode);
    AmpersandsConcat(EscapeChar(c, attributeMode), tail);
  }

  function Escape(s: string, attributeMode: bool): (r: string)
    ensures '<' !in r && '>' !in r && Nbsp !in r
    ensures attributeMode ==> '"' !in r
    ensures !attributeMode ==> ('"' in r <==> '"' in s)
    ensures |r| >= |s|
    ensures Unescape(r) == s
    ensures AmpersandsAreReferences(r)
  {
    if s == [] then []
    else
      var tail := Escape(s[1..], attributeMode);
      EscapeStep(s[0], attributeMode, s[1..], tail);
      assert s == [s[0]] + s[1..];
      EscapeChar(s[0], attributeMode) + tail
  }

  /** `escapeHtml(str)`: the escaped text contains no `<`, `>` or U+00A0,
      decodes back to the input, and keeps every `"` of the input. */
  function EscapeHtml(s: string): (r: string)
    ensures '<' !in r && '>' !in r && Nbsp !in r
    ensures '"' in r <==> '"' in s
    ensures Unescape(r) == s
    ensures AmpersandsAreReferences(r)
  {
    Escape(s, false)
  }

  /** Number of occurrences of `c` in `s`. */
  function CountOf(s: string, c: char): nat {
    if s == [] then 0 else (if s[0] == c then 1 else 0) + CountOf(s[1..], c)
  }

  lemma {:induction false} CountOfConcat(a: string, b: string, c: char)
    ensures CountOf(a + b, c) == CountOf(a, c) + CountOf(b, c)
  {
    if a != [] {
      assert (a + b)[1..] == a[1..] + b;
      CountOfConcat(a[1..], b, c);
    } else {
      assert a + b == b;
    }
  }

  lemma {:induction false} CountOfIsMultiplicity(s: string, c: char)
    ensures CountOf(s, c) == multiset(s)[c]
  {
    if s != [] {
      CountOfIsMultiplicity(s[1..], c);
      assert s == [s[0]] + s[1..];
      assert multiset(s) == multiset([s[0]]) + multiset(s[1..]);
    }
  }

  lemma EscapeCharQuotes(c: char)
    ensures CountOf(EscapeChar(c, false), '"') == if c == '"' then 1 else 0
  {
    var e := EscapeChar(c, false);
    if c == '"' {
      assert e == [c];
    } else {
      assert '"' !in e;
      NoQuoteCountsZero(e);
    }
  }

  lemma {:induction false} NoQuoteCountsZero(s: string)
    requires '"' !in s
    ensures CountOf(s, '"') == 0
  {
    if s != [] {
      assert '"' !in s[1..];
      NoQuoteCountsZero(s[1..]);
    }
  }

  lemma {:induction false} EscapeTextQuoteCount(s: string)
    ensures CountOf(Escape(s, false), '"') == CountOf(s, '"')
  {
    if s != [] {
      var e, tail := EscapeChar(s[0], false), Escape(s[1..], false);
      EscapeTextQuoteCount(s[1..]);
      EscapeCharQuotes(s[0]);
      assert Escape(s, false) == e + tail;
      CountOfConcat(e, tail, '"');
    }
  }

  /** Text mode leaves every `"` as it is: the escaped text holds exactly
      as many quotes as the input. */
  lemma EscapeHtmlKeepsQuotes(s: string)
    ensures multiset(EscapeHtml(s))['"'] == multiset(s)['"']
  {
    EscapeTextQuoteCount(s);
    CountOfIsMultiplicity(s, '"');
    CountOfIsMultiplicity(EscapeHtml(s), '"');
  }

  /** Attribute-mode escaping: also no `"` survives, and the text still
      decodes back to the input. */
  function EscapeAttribute(s: string): (r: string)
    ensures '<' !in r && '>' !in r && Nbsp !in r && '"' !in r
    ensures Unescape(r) == s
    ensures AmpersandsAreReferences(r)
  {
    Escape(s, true)
  }

  /** The value of a double-quoted attribute as an HTML tokenizer reads it
      from the text following the opening quote: everything up to the next
      `"`. */
  function QuotedValue(s: string): (v: string)
    ensures '"' !in v
    ensures |v| <= |s| && ('"' in s ==> |v| < |s|)
  {
    if s == [] || s[0] == '"' then [] else [s[0]] + QuotedValue(s[1..])
  }

  lemma {:induction false} QuotedValueStopsAtQuote(v: string, rest: string)
    requires '"' !in v
    ensures QuotedValue(v + "\"" + rest) == v
  {
    if v != [] {
      assert (v + "\"" + rest)[1..] == v[1..] + "\"" + rest;
      QuotedValueStopsAtQuote(v[1..], rest);
    }
  }

  /** A prefix without `"` is read into the attribute value whole. */
  lemma {:induction false} QuotedValueAfterPlain(p: string, w: string)
    requires '"' !in p
    ensures QuotedValue(p + w) == p + QuotedValue(w)
  {
    if p != [] {
      assert (p + w)[0] == p[0] && (p + w)[1..] == p[1..] + w;
      QuotedValueAfterPlain(p[1..], w);
    } else {
      assert p + w == w;
    }
  }

  /** Whatever follows a text that already holds a `"` is never read. */
  lemma {:induction false} QuotedValueIgnoresTail(w: string, after: string)
    requires '"' in w
    ensures QuotedValue(w + after) == QuotedValue(w)
  {
    assert (w + after)[0] == w[0];
    if w[0] != '"' {
      assert (w + after)[1..] == w[1..] + after;
      QuotedValueIgnoresTail(w[1..], after);
    }
  }

  /** Reading the attribute value of text-escaped text gives the escaped
      attribute value of the text: text mode escapes nothing up to the first
      quote into a quote, and keeps that quote. */
  lemma {:induction false} QuotedValueOfEscapedText(s: string)
    ensures QuotedValue(Escape(s, false)) == Escape(QuotedValue(s), false)
  {
    if s != [] {
      var head := EscapeChar(s[0], false);
      if s[0] == '"' {
        assert head == "\"";
        assert Escape(s, false)[0] == '"';
      } else {
        QuotedValueAfterPlain(head, Escape(s[1..], false));
        QuotedValueOfEscapedText(s[1..]);
        assert QuotedValue(s) == [s[0]] + QuotedValue(s[1..]);
        assert ([s[0]] + QuotedValue(s[1..]))[1..] == QuotedValue(s[1..]);
      }
    }
  }

  /** As written, a title containing `"` and rendered into `alt="..."`
      through `escapeHtml` ends the attribute early: the attribute value read
      back is the part of the title before its first quote, and the rest of
      the title is read as markup. */
  lemma EscapeHtmlBreaksOutOfAttribute(title: string, after: string)
    requires '"' in title
    ensures Unescape(QuotedValue(EscapeHtml(title) + "\"" + after)) == QuotedValue(title)
    ensures Unescape(QuotedValue(EscapeHtml(title) + "\"" + after)) != title
  {
    var w := EscapeHtml(title);
    assert w + "\"" + after == w + ("\"" + after);
    QuotedValueIgnoresTail(w, "\"" + after);
    QuotedValueOfEscapedText(title);
  }

  /** What the `alt` attribute of a card holds, as written: the value an
      HTML parser reads from `alt="${escapeHtml(t)}"` decodes to the text
      up to its first quote, which is all of it exactly when it has none. */
  lemma AttributeValueOfEscapedText(t: string)
    ensures Unescape(QuotedValue(EscapeHtml(t) + "\"")) == QuotedValue(t)
    ensures QuotedValue(t) == t <==> '"' !in t
  {
    assert EscapeHtml(t) + "\"" == EscapeHtml(t) + "\"" + "";
    if '"' in t {
      EscapeHtmlBreaksOutOfAttribute(t, "");
    } else {
      QuotedValueStopsAtQuote(EscapeHtml(t), "");
      QuotedValueAfterPlain(t, []);
      assert t + [] == t;
    }
  }

  /** With attribute-mode escaping the attribute value read back is always
      the title, whatever markup follows the closing quote. */
  lemma EscapeAttributeStaysInAttribute(title: string, after: string)
    ensures Unescape(QuotedValue(EscapeAttribute(title) + "\"" + after)) == title
  {
    QuotedValueStopsAtQuote(EscapeAttribute(title), after);
  }

  /** A title carrying a script tag is shown as text, never as markup. */
  lemma ScriptTitleIsInert(title: string)
    ensures '<' !in EscapeHtml("<script>" + title)
    ensures Unescape(EscapeHtml("<script>" + title)) == "<script>" + title
  {
  }
}

=== FILE: formatting.dfy ===
/** Display formatting of a video card: the view counter (`formatViews`,
    videoloader.js lines 172-179) and the relative age (`getTimeAgo`, lines
    187-202).

    Every formatter comes with a reader for the text it produces; the
    contracts are stated through the reader, so they say what the text
    means rather than how it is assembled.

    The example lemmas take their inputs as parameters fixed by a
    precondition rather than as literals, so that the verifier unfolds the
    functions only as far as each proof needs instead of evaluating them
    eagerly on constant arguments. */
module Formatting {
  import opened Common
  import opened Decimal

  // ---------------------------------------------------------------------
  // View counts

  /** What a views label denotes: an exact count, or a count of thousands or
      millions in tenths (`1.5K` is `Thousands(15)`). */
  datatype ViewCount = Plain(count: int) | Thousands(tenths: nat) | Millions(tenths: nat)

  /** `t` tenths of `unit` is `n` rounded to one decimal, ties upwards:
      `n / unit` lies within half a tenth of `t / 10`. */
  predicate NearestTenth(n: int, unit: nat, t: nat) {
    2 * unit * t - unit <= 20 * n < 2 * unit * t + unit
  }

  /** `x.toFixed(1)` for `x == t / 10`: the whole part, a dot, one digit. */
  function Tenths(t: nat): string {
    NatToString(t / 10) + "." + [DigitChar(t % 10)]
  }

  /** Reads text of the shape `digits.digit` back as a number of tenths;
      the whole part must be printed without leading zeros. */
  function ReadTenths(s: string): Option<nat> {
    if |s| >= 3 && s[|s| - 2] == '.' && IsDigit(s[|s| - 1]) && Canonical(s[..|s| - 2])
    then Some(10 * ParseNat(s[..|s| - 2]) + DigitValue(s[|s| - 1]))
    else None
  }

  lemma ReadTenthsOfTenths(t: nat)
    ensures ReadTenths(Tenths(t)) == Some(t)
  {
    var s := Tenths(t);
    assert s[..|s| - 2] == NatToString(t / 10);
  }

  /** The text `ReadTenths` accepts is exactly what `toFixed(1)` prints. */
  lemma ReadTenthsDeterminesText(s: string)
    requires ReadTenths(s).Some?
    ensures s == Tenths(ReadTenths(s).value)
  {
    var w, c := s[..|s| - 2], s[|s| - 1];
    var t := ReadTenths(s).value;
    CanonicalRoundTrip(w);
    assert t / 10 == ParseNat(w) && t % 10 == DigitValue(c);
    assert DigitChar(DigitValue(c)) == c;
    assert s == w + "." + [c];
  }

  /** Reads a views label back; numbers must be printed the way `${n}`
      prints them, without leading zeros and without `-0`. */
  function ReadViews(r: string): Option<ViewCount> {
    if !EndsWith(r, " views") then None
    else
      var body := r[..|r| - 6];
      if body == [] then None
      else if Canonical(body) then Some(Plain(ParseNat(body)))
      else if body[0] == '-' && |body| >= 2 && Canonical(body[1..]) && body[1] != '0' then
        var m: int := ParseNat(body[1..]); Some(Plain(-m))
      else if body[|body| - 1] == 'K' && ReadTenths(body[..|body| - 1]).Some? then
        Some(Thousands(ReadTenths(body[..|body| - 1]).value))
      else if body[|body| - 1] == 'M' && ReadTenths(body[..|body| - 1]).Some? then
        Some(Millions(ReadTenths(body[..|body| - 1]).value))
      else None
  }

  /** Splitting a label back into its body and the ` views` suffix. */
  lemma ViewsSuffix(body: string)
    ensures EndsWith(body + " views", " views")
    ensures (body + " views")[..|body + " views"| - 6] == body
  {
    assert (body + " views")[|body|..] == " views";
  }

  lemma ReadScaledViews(t: nat, unit: char)
    requires unit == 'K' || unit == 'M'
    ensures ReadViews(Tenths(t) + [unit] + " views") == Some(if unit == 'K' then Thousands(t) else Millions(t))
  {
    var body := Tenths(t) + [unit];
    ViewsSuffix(body);
    assert !IsDigit(body[|body| - 1]);
    assert body[0] == NatToString(t / 10)[0];
    assert body[..|body| - 1] == Tenths(t);
    ReadTenthsOfTenths(t);
  }

  lemma ReadPlainViews(n: int)
    ensures ReadViews(IntToString(n) + " views") == Some(Plain(n))
  {
    var body := IntToString(n);
    ViewsSuffix(body);
    if n < 0 {
      assert !IsDigit(body[0]);
      assert body[1..] == NatToString(-n);
    }
  }

  /** The label of a view count in each of the three forms. */
  function ViewsText(c: ViewCount): string {
    match c
    case Plain(n) => IntToString(n) + " views"
    case Thousands(t) => Tenths(t) + "K" + " views"
    case Millions(t) => Tenths(t) + "M" + " views"
  }

  lemma NegativeBodyText(body: string)
    requires |body| >= 2 && body[0] == '-' && Canonical(body[1..]) && body[1] != '0'
    ensures body == IntToString(-(ParseNat(body[1..]) as int))
  {
    CanonicalRoundTrip(body[1..]);
    ParseNatPositive(body[1..]);
    assert body == "-" + body[1..];
  }

  lemma ScaledBodyText(body: string)
    requires body != [] && ReadTenths(body[..|body| - 1]).Some?
    ensures body == Tenths(ReadTenths(body[..|body| - 1]).value) + [body[|body| - 1]]
  {
    ReadTenthsDeterminesText(body[..|body| - 1]);
    assert body == body[..|body| - 1] + [body[|body| - 1]];
  }

  /** A label is determined by what it reads back as: the reader accepts
      only the text the formatter prints. */
  lemma ReadViewsDeterminesText(r: string)
    requires ReadViews(r).Some?
    ensures r == ViewsText(ReadViews(r).value)
  {
    var body := r[..|r| - 6];
    assert r == body + " views";
    if Canonical(body) {
      CanonicalRoundTrip(body);
    } else if body[0] == '-' && |body| >= 2 && Canonical(body[1..]) && body[1] != '0' {
      NegativeBodyText(body);
    } else {
      ScaledBodyText(body);
    }
  }

  /** Rounding to tenths of `unit`, ties upwards. */
  lemma RoundedIsNearest(n: int, unit: nat)
    requires unit == 1000 || unit == 1000000
    requires n >= 0
    ensures NearestTenth(n, unit, (10 * n + unit / 2) / unit)
  {
  }

  /** `formatViews(n)`: below a thousand the exact count; below a million
      the count of thousands rounded to one decimal with a `K`; otherwise
      the count of millions rounded to one decimal with an `M`. There is no
      space before the unit letter. */
  function FormatViews(n: int): (r: string)
    ensures n < 1000 ==> ReadViews(r) == Some(Plain(n))
    ensures 1000 <= n < 1000000 ==>
      ReadViews(r).Some? && ReadViews(r).value.Thousands? && NearestTenth(n, 1000, ReadViews(r).value.tenths)
    ensures 1000000 <= n ==>
      ReadViews(r).Some? && ReadViews(r).value.Millions? && NearestTenth(n, 1000000, ReadViews(r).value.tenths)
  {
    if n >= 1000000 then
      var t := (10 * n + 500000) / 1000000;
      RoundedIsNearest(n, 1000000);
      ReadScaledViews(t, 'M');
      Tenths(t) + "M" + " views"
    else if n >= 1000 then
      var t := (10 * n + 500) / 1000;
      RoundedIsNearest(n, 1000);
      ReadScaledViews(t, 'K');
      Tenths(t) + "K" + " views"
    else
      ReadPlainViews(n);
      IntToString(n) + " views"
  }

  /** The largest count still shown in thousands rounds up to `1000.0K`. */
  lemma ViewsJustBelowAMillion(n: int)
    requires n == 999999
    ensures FormatViews(n) == "1000.0K views"
  {
    assert (10 * n + 500) / 1000 == 10000;
    assert NatToString(1000) == "1000";
    assert Tenths(10000) == "1000.0";
  }

  /** `formatViews(500)` is `500 views`. */
  lemma ViewsPlainExample(n: int)
    requires n == 500
    ensures FormatViews(n) == "500 views"
  {
    assert NatToString(500) == "500";
  }

  /** `formatViews(1500)` is `1.5K views`. */
  lemma ViewsThousandsExample(n: int)
    requires n == 1500
    ensures FormatViews(n) == "1.5K views"
  {
    assert (10 * n + 500) / 1000 == 15;
    assert Tenths(15) == "1.5";
  }

  /** `formatViews(2500000)` is `2.5M views`. */
  lemma ViewsMillionsExample(n: int)
    requires n == 2500000
    ensures FormatViews(n) == "2.5M views"
  {
    assert (10 * n + 500000) / 1000000 == 25;
    assert Tenths(25) == "2.5";
  }

  // ---------------------------------------------------------------------
  // Relative age

  const MsPerDay: nat := 1000 * 60 * 60 * 24

  function Abs(x: int): nat {
    if x < 0 then -x else x
  }

  /** `Math.ceil(Math.abs(diff) / 86400000)`: the whole number of days that
      covers the difference. */
  function DaysAgo(diffMs: int): (d: nat)
    ensures Abs(diffMs) <= d * MsPerDay
    ensures d == 0 || (d - 1) * MsPerDay < Abs(diffMs)
  {
    (Abs(diffMs) + MsPerDay - 1) / MsPerDay
  }

  datatype Age = Days(n: nat) | Months(n: nat) | Years(n: nat)

  /** The bucket `getTimeAgo` picks for a difference of `d` days: whole days
      below 30, whole 30-day months below 365, whole 365-day years after. */
  function AgeOf(d: nat): (a: Age)
    ensures a.Days? <==> d < 30
    ensures a.Months? <==> 30 <= d < 365
    ensures a.Days? ==> a.n == d
    ensures a.Months? ==> 1 <= a.n <= 12 && 30 * a.n <= d < 30 * (a.n + 1)
    ensures a.Years? ==> 1 <= a.n && 365 * a.n <= d < 365 * (a.n + 1)
  {
    if d < 30 then Days(d)
    else if d < 365 then Months(d / 30)
    else Years(d / 365)
  }

  /** The label for a bucket; months and years take the plural `s` only
      above one, days always do. */
  function AgeText(a: Age): string {
    match a
    case Days(n) => NatToString(n) + " days ago"
    case Months(n) => NatToString(n) + (if n > 1 then " months ago" else " month ago")
    case Years(n) => NatToString(n) + (if n > 1 then " years ago" else " year ago")
  }

  /** Reads an age label back: a number printed without leading zeros and
      a unit, plural for days and for more than one month or year. */
  function ReadAge(r: string): Option<Age> {
    var k := DigitPrefix(r);
    if k == 0 || !Canonical(r[..k]) then None
    else
      var n := ParseNat(r[..k]);
      var unit := r[k..];
      if unit == " days ago" then Some(Days(n))
      else if unit == (if n > 1 then " months ago" else " month ago") then Some(Months(n))
      else if unit == (if n > 1 then " years ago" else " year ago") then Some(Years(n))
      else None
  }

  /** An age label is determined by what it reads back as. */
  lemma ReadAgeDeterminesText(r: string)
    requires ReadAge(r).Some?
    ensures r == AgeText(ReadAge(r).value)
  {
    var k := DigitPrefix(r);
    CanonicalRoundTrip(r[..k]);
    assert r == r[..k] + r[k..];
  }

  lemma ReadAgeText(a: Age)
    ensures ReadAge(AgeText(a)) == Some(a)
  {
    var digits := NatToString(a.n);
    var unit := AgeText(a)[|digits|..];
    assert AgeText(a) == digits + unit;
    DigitPrefixOfConcat(digits, unit);
  }

  /** A label ends in the plural unit exactly for days and for more than
      one month or year. */
  lemma AgeTextPlural(a: Age)
    ensures EndsWith(AgeText(a), "s ago") <==> a.Days? || a.n > 1
  {
    var r := AgeText(a);
    var digits := NatToString(a.n);
    assert r[|r| - 5..] == r[|digits|..][|r[|digits|..]| - 5..];
  }

  /** `getTimeAgo` for an upload `diffMs` milliseconds away from now: the
      label reads back as the bucket of the covering day count, and it is
      singular exactly for one month or one year. */
  function GetTimeAgo(diffMs: int): (r: string)
    ensures ReadAge(r) == Some(AgeOf(DaysAgo(diffMs)))
    ensures EndsWith(r, "s ago") <==> AgeOf(DaysAgo(diffMs)).Days? || AgeOf(DaysAgo(diffMs)).n != 1
  {
    var a := AgeOf(DaysAgo(diffMs));
    ReadAgeText(a);
    AgeTextPlural(a);
    AgeText(a)
  }

  /** Ten days ago is `10 days ago`. */
  lemma AgeTenDays(diffMs: int)
    requires diffMs == 10 * MsPerDay
    ensures GetTimeAgo(diffMs) == "10 days ago"
  {
    assert DaysAgo(diffMs) == 10 && AgeOf(10) == Days(10);
    assert NatToString(10) == "10";
  }

  /** Sixty days in the future is two 30-day months away. */
  lemma AgeSixtyDays(diffMs: int)
    requires diffMs == -60 * MsPerDay
    ensures GetTimeAgo(diffMs) == "2 months ago"
  {
    assert DaysAgo(diffMs) == 60 && AgeOf(60) == Months(2);
  }

  /** Four hundred days is one 365-day year, in the singular. */
  lemma AgeFourHundredDays(diffMs: int)
    requires diffMs == 400 * MsPerDay
    ensures GetTimeAgo(diffMs) == "1 year ago"
  {
    assert DaysAgo(diffMs) == 400 && AgeOf(400) == Years(1);
  }

  /** Even a single day, or none, is reported in the plural. */
  lemma AgeDaysAlwaysPlural(zero: int, one: int)
    requires zero == 0 && one == MsPerDay
    ensures GetTimeAgo(zero) == "0 days ago"
    ensures GetTimeAgo(one) == "1 days ago"
  {
    assert DaysAgo(zero) == 0 && AgeOf(0) == Days(0);
    assert NatToString(0) == "0";
    assert DaysAgo(one) == 1 && AgeOf(1) == Days(1);
    assert NatToString(1) == "1";
  }
}

=== FILE: identifiers.dfy ===
/** Video identifiers: the YouTube-ID extractor `getVideoId`, the
    `isYouTubeVideo` classifier and the thumbnail-URL builder
    (videoloader.js lines 45 and 204-226).

    Each regular expression of `getVideoId` has the shape
    `(?:L1|L2|...)([^&\n?#]+)` with literal prefixes `Li`. JavaScript's
    `String.prototype.match` without the `g` flag reports the match that
    starts leftmost; at one start position the alternatives are tried in
    order, and the greedy capture takes the longest run of identifier
    characters. `IsLeftmost` states that choice declaratively and
    `FindMatch` is the scanner proved to make it.

    The example lemmas take their inputs as parameters fixed by a
    precondition rather than as literals, so that the verifier unfolds the
    functions only as far as each proof needs instead of evaluating them
    eagerly on constant arguments. */
module Identifiers {
  import opened Common

  /** A character the class `[^&\n?#]` accepts. */
  predicate IsIdChar(c: char) {
    c != '&' && c != '\n' && c != '?' && c != '#'
  }

  /** Length of the greedy run of identifier characters starting at `i`. */
  function RunLength(s: string, i: nat): (k: nat)
    requires i <= |s|
    ensures i + k <= |s|
    ensures forall j :: i <= j < i + k ==> IsIdChar(s[j])
    ensures i + k < |s| ==> !IsIdChar(s[i + k])
    decreases |s| - i
  {
    if i == |s| || !IsIdChar(s[i]) then 0 else 1 + RunLength(s, i + 1)
  }

  /** The pattern `lit([^&\n?#]+)` matches `s` starting at index `i`. */
  predicate MatchAt(s: string, i: nat, lit: string) {
    i + |lit| < |s| && s[i..i + |lit|] == lit && IsIdChar(s[i + |lit|])
  }

  /** The captured group of a match of `lit([^&\n?#]+)` at `i`. */
  function Capture(s: string, i: nat, lit: string): (c: string)
    requires MatchAt(s, i, lit)
    ensures |c| >= 1
    ensures forall j :: 0 <= j < |c| ==> IsIdChar(c[j])
  {
    var start := i + |lit|;
    s[start..start + RunLength(s, start)]
  }

  /** Where a pattern matched: start index and index of the alternative. */
  datatype Match = Match(pos: nat, alt: nat)

  /** No alternative of `alts` matches at any start position below `bound`. */
  ghost predicate NoMatchBelow(s: string, alts: seq<string>, bound: int) {
    forall j, a :: 0 <= j < bound && 0 <= a < |alts| ==> !MatchAt(s, j, alts[a])
  }

  /** The pattern with alternatives `alts` does not match `s` at all. */
  ghost predicate NoMatch(s: string, alts: seq<string>) {
    NoMatchBelow(s, alts, |s|)
  }

  /** `m` is the match a regular-expression engine reports: the leftmost
      start position, and at that position the first alternative. */
  ghost predicate IsLeftmost(s: string, alts: seq<string>, m: Match) {
    && m.pos < |s| && m.alt < |alts|
    && MatchAt(s, m.pos, alts[m.alt])
    && NoMatchBelow(s, alts, m.pos)
    && (forall a :: 0 <= a < m.alt ==> !MatchAt(s, m.pos, alts[a]))
  }

  /** The leftmost match is unique, so `IsLeftmost` determines the capture. */
  lemma LeftmostIsUnique(s: string, alts: seq<string>, m1: Match, m2: Match)
    requires IsLeftmost(s, alts, m1) && IsLeftmost(s, alts, m2)
    ensures m1 == m2
  {
  }

  /** The first alternative at index `a` or later that matches at `i`. */
  function FirstAlt(s: string, alts: seq<string>, i: nat, a: nat): (r: Option<nat>)
    requires a <= |alts|
    ensures r.Some? ==> a <= r.value < |alts| && MatchAt(s, i, alts[r.value])
    ensures r.Some? ==> forall b :: a <= b < r.value ==> !MatchAt(s, i, alts[b])
    ensures r.None? ==> forall b :: a <= b < |alts| ==> !MatchAt(s, i, alts[b])
    decreases |alts| - a
  {
    if a == |alts| then None
    else if MatchAt(s, i, alts[a]) then Some(a)
    else FirstAlt(s, alts, i, a + 1)
  }

  /** Scans start positions from `from` upwards for the leftmost match. */
  function FindMatch(s: string, alts: seq<string>, from: nat): (r: Option<Match>)
    requires from <= |s|
    requires NoMatchBelow(s, alts, from)
    ensures r.None? <==> NoMatch(s, alts)
    ensures r.Some? ==> IsLeftmost(s, alts, r.value)
    decreases |s| - from
  {
    if from == |s| then None
    else
      match FirstAlt(s, alts, from, 0)
      case Some(a) => Some(Match(from, a))
      case None => FindMatch(s, alts, from + 1)
  }

  /** `s.match(pattern)?.[1]` for the pattern with alternatives `alts`. */
  function Search(s: string, alts: seq<string>): (r: Option<string>)
    ensures r.None? <==> NoMatch(s, alts)
    ensures r.Some? ==> r.value != [] && forall j :: 0 <= j < |r.value| ==> IsIdChar(r.value[j])
    ensures r.Some? ==> exists m :: IsLeftmost(s, alts, m) && r.value == Capture(s, m.pos, alts[m.alt])
  {
    match FindMatch(s, alts, 0)
    case None => None
    case Some(m) => Some(Capture(s, m.pos, alts[m.alt]))
  }

  /** The three patterns of `getVideoId`, in the order `Object.values`
      yields them. */
  const Standard: seq<string> := ["youtube.com/watch?v=", "youtu.be/"]
  const ShortUrl: seq<string> := ["youtu.be/"]
  const Embed: seq<string> := ["youtube.com/embed/"]
  const Patterns: seq<seq<string>> := [Standard, ShortUrl, Embed]

  /** The `for ... of` loop over the patterns: the first one whose capture
      is non-empty decides. */
  function FirstPatternMatch(s: string, pats: seq<seq<string>>): (r: Option<string>)
    ensures r.None? <==> forall p :: 0 <= p < |pats| ==> NoMatch(s, pats[p])
    ensures r.Some? ==> r.value != [] && forall j :: 0 <= j < |r.value| ==> IsIdChar(r.value[j])
  {
    if pats == [] then None
    else
      match Search(s, pats[0])
      case Some(id) => Some(id)
      case None => FirstPatternMatch(s, pats[1..])
  }

  /** `getVideoId(url)`; `None` for `url` stands for `null`/`undefined`. */
  function GetVideoId(url: Option<string>): (r: Option<string>)
    ensures url.None? || url.value == [] ==> r.None?
    ensures url.Some? && |url.value| == 11 ==> r == url
    ensures r.Some? ==> r.value != []
  {
    if url.None? || url.value == [] then None
    else if |url.value| == 11 then url
    else FirstPatternMatch(url.value, Patterns)
  }

  /** `isYouTubeVideo(id)`: exactly eleven characters and no dot. Such an
      identifier is one `getVideoId` already leaves unchanged; an
      eleven-character one that is rejected holds a dot. */
  function IsYouTubeVideo(id: string): (b: bool)
    ensures b ==> |id| == 11 && '.' !in id && GetVideoId(Some(id)) == Some(id)
    ensures |id| == 11 && !b ==> exists i :: 0 <= i < |id| && id[i] == '.'
  {
    |id| == 11 && '.' !in id
  }

  const ThumbnailHost: string := "https://img.youtube.com/vi/"

  /** The video ID a thumbnail URL for quality tier `quality` carries,
      when `url` has the shape the thumbnail builder produces. */
  function ThumbnailId(url: string, quality: string): Option<string> {
    var suffix := "/" + quality + ".jpg";
    if |ThumbnailHost| + |suffix| <= |url| && StartsWith(url, ThumbnailHost) && EndsWith(url, suffix)
    then Some(url[|ThumbnailHost|..|url| - |suffix|])
    else None
  }

  /** `generateThumbnailUrl(videoId)`: throws `Invalid video ID` exactly when
      the identifier cannot be normalised; otherwise the URL carries the
      normalised ID and the quality tier. */
  function GenerateThumbnailUrl(videoId: Option<string>, quality: string): (r: Result<string>)
    ensures r.Err? <==> GetVideoId(videoId).None?
    ensures r.Err? ==> r.message == "Invalid video ID"
    ensures r.Ok? ==> StartsWith(r.value, ThumbnailHost) && EndsWith(r.value, "/" + quality + ".jpg")
    ensures r.Ok? ==> ThumbnailId(r.value, quality) == GetVideoId(videoId)
  {
    match GetVideoId(videoId)
    case None => Err("Invalid video ID")
    case Some(id) =>
      var url := ThumbnailHost + id + "/" + quality + ".jpg";
      assert url[..|ThumbnailHost|] == ThumbnailHost;
      assert url[|url| - |"/" + quality + ".jpg"|..] == "/" + quality + ".jpg";
      assert url[|ThumbnailHost|..|url| - |"/" + quality + ".jpg"|] == id;
      Ok(url)
  }

  /** Every match of the `shortUrl` pattern is a match of the second
      alternative of `standard` at the same position. */
  lemma ShortUrlMatchIsStandardMatch(s: string)
    ensures NoMatch(s, Standard) ==> NoMatch(s, ShortUrl)
  {
    assert ShortUrl[0] == Standard[1];
  }

  /** The `shortUrl` pattern never decides the result: dropping it from the
      loop changes nothing. */
  lemma ShortUrlNeverDecides(s: string)
    ensures FirstPatternMatch(s, Patterns) == FirstPatternMatch(s, [Standard, Embed])
  {
    ShortUrlMatchIsStandardMatch(s);
    assert Patterns[1..] == [ShortUrl, Embed];
    assert Patterns[1..][1..] == [Embed];
    assert [Standard, Embed][1..] == [Embed];
  }

  /** What `getVideoId` returns for a non-empty input whose length is not
      eleven: the capture of the leftmost `standard` match if there is one,
      else the capture of the leftmost `embed` match, else `null`. */
  lemma VideoIdExtraction(s: string)
    requires s != [] && |s| != 11
    ensures !NoMatch(s, Standard) ==>
      exists m :: IsLeftmost(s, Standard, m) && GetVideoId(Some(s)) == Some(Capture(s, m.pos, Standard[m.alt]))
    ensures NoMatch(s, Standard) && !NoMatch(s, Embed) ==>
      exists m :: IsLeftmost(s, Embed, m) && GetVideoId(Some(s)) == Some(Capture(s, m.pos, Embed[0]))
    ensures GetVideoId(Some(s)).None? <==> NoMatch(s, Standard) && NoMatch(s, Embed)
  {
    ShortUrlNeverDecides(s);
    assert [Standard, Embed][1..] == [Embed];
    assert [Embed][1..] == [];
  }

  /** A pattern whose alternatives all start with `c` cannot match where
      `c` does not occur. */
  lemma NoMatchWithoutFirstChar(s: string, alts: seq<string>, c: char, lo: nat, hi: nat)
    requires lo <= hi <= |s|
    requires forall a :: 0 <= a < |alts| ==> |alts[a]| > 0 && alts[a][0] == c
    requires forall j :: lo <= j < hi ==> s[j] != c
    ensures forall j, a :: lo <= j < hi && 0 <= a < |alts| ==> !MatchAt(s, j, alts[a])
  {
    forall j, a | lo <= j < hi && 0 <= a < |alts|
      ensures !MatchAt(s, j, alts[a])
    {
      if j + |alts[a]| < |s| {
        assert s[j..j + |alts[a]|][0] == s[j];
      }
    }
  }

  /** When everything after the prefix is identifier characters, the capture
      is the whole rest of the string. */
  lemma CaptureToEnd(s: string, m: Match, lit: string)
    requires MatchAt(s, m.pos, lit)
    requires forall j :: m.pos + |lit| <= j < |s| ==> IsIdChar(s[j])
    ensures Capture(s, m.pos, lit) == s[m.pos + |lit|..]
  {
  }

  /** From a leftmost match of `standard` to the value of `getVideoId`. */
  lemma StandardDecides(s: string, m: Match)
    requires s != [] && |s| != 11
    requires IsLeftmost(s, Standard, m)
    ensures GetVideoId(Some(s)) == Some(Capture(s, m.pos, Standard[m.alt]))
  {
    VideoIdExtraction(s);
    var m' :| IsLeftmost(s, Standard, m') && GetVideoId(Some(s)) == Some(Capture(s, m'.pos, Standard[m'.alt]));
    LeftmostIsUnique(s, Standard, m, m');
  }

  /** A URL made of a host part without `y`, a literal prefix of the
      pattern and an identifier: the pattern matches right after the host
      and captures exactly the identifier. */
  lemma MatchAfterHost(host: string, alts: seq<string>, a: nat, id: string)
    requires a < |alts|
    requires forall b :: 0 <= b < |alts| ==> |alts[b]| > 0 && alts[b][0] == 'y'
    requires 'y' !in host
    requires forall b :: 0 <= b < a ==> !MatchAt(host + alts[a] + id, |host|, alts[b])
    requires id != [] && forall j :: 0 <= j < |id| ==> IsIdChar(id[j])
    ensures IsLeftmost(host + alts[a] + id, alts, Match(|host|, a))
    ensures Capture(host + alts[a] + id, |host|, alts[a]) == id
  {
    var s := host + alts[a] + id;
    forall j | 0 <= j < |host| ensures s[j] != 'y' {
      assert s[j] == host[j];
    }
    NoMatchWithoutFirstChar(s, alts, 'y', 0, |host|);
    assert s[|host|..|host| + |alts[a]|] == alts[a];
    assert s[|host| + |alts[a]|..] == id;
    CaptureToEnd(s, Match(|host|, a), alts[a]);
  }

  /** A watch URL with no `y` outside its `youtube.com/watch?v=` part
      normalises to the identifier after that part. */
  lemma WatchUrlDecides(host: string, id: string)
    requires 'y' !in host
    requires id != [] && forall j :: 0 <= j < |id| ==> IsIdChar(id[j])
    requires |host + Standard[0] + id| != 11
    ensures GetVideoId(Some(host + Standard[0] + id)) == Some(id)
  {
    MatchAfterHost(host, Standard, 0, id);
    StandardDecides(host + Standard[0] + id, Match(|host|, 0));
  }

  /** A short URL with no `y` before its `youtu.be/` part normalises to the
      identifier after that part: the watch alternative cannot match there,
      since `youtu.be/` has a dot where `youtube.com/` has a `b`. */
  lemma ShortUrlDecides(host: string, id: string)
    requires 'y' !in host
    requires id != [] && forall j :: 0 <= j < |id| ==> IsIdChar(id[j])
    requires |host + Standard[1] + id| != 11
    ensures GetVideoId(Some(host + Standard[1] + id)) == Some(id)
  {
    var s := host + Standard[1] + id;
    assert s[|host| + 5] == Standard[1][5];
    if |host| + |Standard[0]| < |s| {
      assert s[|host|..|host| + |Standard[0]|][5] != Standard[0][5];
    }
    MatchAfterHost(host, Standard, 1, id);
    StandardDecides(s, Match(|host|, 1));
  }

  /** `https://youtu.be/abc12345678` gives `abc12345678`. */
  lemma ShortUrlExample(host: string, id: string)
    requires host == "https://" && id == "abc12345678"
    ensures GetVideoId(Some(host + Standard[1] + id)) == Some(id)
  {
    assert |host + Standard[1] + id| == 28;
    ShortUrlDecides(host, id);
  }

  /** `https://www.youtube.com/watch?v=abc12345678` gives `abc12345678`. */
  lemma WatchUrlExample(host: string, id: string)
    requires host == "https://www." && id == "abc12345678"
    ensures GetVideoId(Some(host + Standard[0] + id)) == Some(id)
  {
    assert |host + Standard[0] + id| == 43;
    WatchUrlDecides(host, id);
  }

  /** An embed URL with no `y` outside its `youtube.com/embed/` part has no
      match of the `standard` pattern. */
  lemma EmbedUrlHasNoStandardMatch(host: string, id: string)
    requires 'y' !in host && 'y' !in id
    ensures NoMatch(host + Embed[0] + id, Standard)
  {
    var s := host + Embed[0] + id;
    var h := |host|;
    forall j | 0 <= j < h ensures s[j] != 'y' {
      assert s[j] == host[j];
    }
    forall j | h + 1 <= j < |s| ensures s[j] != 'y' {
      if j < h + |Embed[0]| {
        assert s[j] == Embed[0][j - h];
      } else {
        assert s[j] == id[j - h - |Embed[0]|];
      }
    }
    NoMatchWithoutFirstChar(s, Standard, 'y', 0, h);
    NoMatchWithoutFirstChar(s, Standard, 'y', h + 1, |s|);
    if h + |Standard[1]| < |s| {
      assert s[h..h + |Standard[1]|][5] == Embed[0][5];
    }
    if h + |Standard[0]| < |s| {
      assert s[h..h + |Standard[0]|][12] == Embed[0][12];
    }
  }

  /** An embed URL with no `y` outside its `youtube.com/embed/` part
      normalises to the identifier after that part. */
  lemma EmbedUrlDecides(host: string, id: string)
    requires 'y' !in host && 'y' !in id
    requires id != [] && forall j :: 0 <= j < |id| ==> IsIdChar(id[j])
    requires |host + Embed[0] + id| != 11
    ensures GetVideoId(Some(host + Embed[0] + id)) == Some(id)
  {
    var s := host + Embed[0] + id;
    MatchAfterHost(host, Embed, 0, id);
    EmbedUrlHasNoStandardMatch(host, id);
    VideoIdExtraction(s);
    var m' :| IsLeftmost(s, Embed, m') && GetVideoId(Some(s)) == Some(Capture(s, m'.pos, Embed[0]));
    LeftmostIsUnique(s, Embed, Match(|host|, 0), m');
  }

  /** An embed URL carrying an eleven-character ID normalises to that ID:
      `https://www.youtube.com/embed/abc12345678` gives `abc12345678`. */
  lemma EmbedUrlExample(host: string, id: string)
    requires host == "https://www." && id == "abc12345678"
    ensures GetVideoId(Some(host + Embed[0] + id)) == Some(id)
  {
    assert |host + Embed[0] + id| == 41;
    EmbedUrlDecides(host, id);
  }

  /** The captured ID's length is never checked, and a short capture is not
      itself accepted again: `https://youtu.be/abc` gives `abc`, but `abc`
      gives `null`, so `getVideoId` is not idempotent. */
  lemma CaptureLengthUnchecked(host: string, id: string)
    requires host == "https://" && id == "abc"
    ensures GetVideoId(Some(host + Standard[1] + id)) == Some(id)
    ensures GetVideoId(Some(id)) == None
  {
    assert |host + Standard[1] + id| == 20;
    ShortUrlDecides(host, id);
    assert NoMatch(id, Standard) && NoMatch(id, Embed);
    VideoIdExtraction(id);
  }

}

=== FILE: render.dfy ===
/** The data a video card is built from (`createVideoElement`,
    videoloader.js lines 67-108): the player link, the escaped texts and
    the summary line. The HTML template and the click listeners are not
    modelled; `encodeURIComponent` is a parameter. */
module Render {
  import opened Common
  import opened Identifiers
  import opened Videos
  import opened Formatting
  import opened Escaping

  /** The `type` flag of the player link: `youtube` exactly for
      YouTube-style identifiers, `local` for everything else. */
  function MediaType(id: string): (r: string)
    ensures r == "youtube" || r == "local"
    ensures r == "youtube" <==> IsYouTubeVideo(id)
  {
    if IsYouTubeVideo(id) then "youtube" else "local"
  }

  /** Which of the two flags a link ends with. */
  lemma TypeFlagSuffix(head: string, id: string)
    ensures var u := head + "&type=" + MediaType(id);
      && (EndsWith(u, "&type=youtube") <==> IsYouTubeVideo(id))
      && (EndsWith(u, "&type=local") <==> !IsYouTubeVideo(id))
  {
    var u := head + "&type=" + MediaType(id);
    assert u[|u| - |"&type=" + MediaType(id)|..] == "&type=" + MediaType(id);
    if IsYouTubeVideo(id) {
      assert u[|u| - 11..] != "&type=local" by {
        assert u[|u| - 11..][10] == 'e';
      }
    } else if |u| >= 13 {
      assert u[|u| - 13..][12] == u[|u| - 1] == 'l';
    }
  }

  /** `${playerPage}?v=${id}&title=${encodedTitle}&type=${...}`: the link
      starts with the page, the raw identifier and the encoded title, and
      ends with `type=youtube` exactly for YouTube-style identifiers. */
  function PlayerUrl(playerPage: string, id: string, title: string, encode: string -> string): (u: string)
    ensures StartsWith(u, playerPage + "?v=" + id + "&title=" + encode(title) + "&type=")
    ensures var n := |playerPage + "?v=" + id + "&title=" + encode(title) + "&type="|;
      u[n..] == "youtube" || u[n..] == "local"
    ensures EndsWith(u, "&type=youtube") <==> IsYouTubeVideo(id)
    ensures EndsWith(u, "&type=local") <==> !IsYouTubeVideo(id)
  {
    var head := playerPage + "?v=" + id + "&title=" + encode(title);
    var u := head + "&type=" + MediaType(id);
    assert u[..|head + "&type="|] == head + "&type=";
    TypeFlagSuffix(head, id);
    u
  }

  /** The separator of the summary line, as the characters stand in the
      source file (a UTF-8 bullet decoded as Windows-1252). */
  const Separator: string := " \U{00E2}\U{20AC}\U{00A2} "

  /** What a rendered card shows. `featured` is the `featured-video` class. */
  datatype Card = Card(
    featured: bool,
    link: string,
    thumbnail: string,
    thumbnailAlt: string,
    durationBadge: Option<string>,
    avatar: string,
    avatarAlt: string,
    heading: string,
    authorName: string,
    summary: string)

  const NullIdError: string := "Cannot read properties of null (reading 'length')"

  /** A video can be rendered when its identifier is not `null`:
      `isYouTubeVideo(null)` reads `null.length` and throws. */
  predicate Renderable(v: Video) {
    v.id.Some?
  }

  /** `createVideoElement(video)` for a video uploaded `ageMs` milliseconds
      away from now, as written: every text, the two `alt` attributes
      included, goes through `escapeHtml`. The visible texts hold no markup
      and read back as the title and the author's name; an `alt` value, read
      up to the closing quote the template puts after it, is the text up to
      its first `"` (see the findings in the README). */
  function RenderCard(playerPage: string, v: Video, featured: bool, ageMs: int, encode: string -> string): (r: Result<Card>)
    ensures r.Err? <==> !Renderable(v)
    ensures r.Ok? ==> r.value.featured == featured
    ensures r.Ok? ==> r.value.link == PlayerUrl(playerPage, v.id.value, v.title, encode)
    ensures r.Ok? ==> (EndsWith(r.value.link, "&type=youtube") <==> IsYouTubeVideo(v.id.value))
    ensures r.Ok? ==> r.value.thumbnail == v.thumbnail && r.value.avatar == v.author.avatar
    ensures r.Ok? ==> '<' !in r.value.heading && Unescape(r.value.heading) == v.title
    ensures r.Ok? ==> '<' !in r.value.authorName && Unescape(r.value.authorName) == v.author.name
    ensures r.Ok? ==> r.value.heading == r.value.thumbnailAlt == EscapeHtml(v.title)
    ensures r.Ok? ==> r.value.authorName == r.value.avatarAlt == EscapeHtml(v.author.name)
    ensures r.Ok? ==> Unescape(QuotedValue(r.value.thumbnailAlt + "\"")) == QuotedValue(v.title)
    ensures r.Ok? ==> Unescape(QuotedValue(r.value.avatarAlt + "\"")) == QuotedValue(v.author.name)
    ensures r.Ok? ==> (r.value.durationBadge.Some? <==> v.duration != "")
    ensures r.Ok? && v.duration != "" ==> r.value.durationBadge == Some(v.duration)
    ensures r.Ok? ==> r.value.summary == FormatViews(v.views) + Separator + GetTimeAgo(ageMs)
  {
    match v.id
    case None => Err(NullIdError)
    case Some(id) =>
      AttributeValueOfEscapedText(v.title);
      AttributeValueOfEscapedText(v.author.name);
      Ok(Card(
        featured,
        PlayerUrl(playerPage, id, v.title, encode),
        v.thumbnail,
        EscapeHtml(v.title),
        if v.duration != "" then Some(v.duration) else None,
        v.author.avatar,
        EscapeHtml(v.author.name),
        EscapeHtml(v.title),
        EscapeHtml(v.author.name),
        FormatViews(v.views) + Separator + GetTimeAgo(ageMs)))
  }

  /** The card with attribute-mode escaping in the two `alt` attributes:
      the same card, except that each `alt` text holds no `"` and decodes to
      the whole title or name. */
  function RenderSafeCard(playerPage: string, v: Video, featured: bool, ageMs: int, encode: string -> string): (r: Result<Card>)
    ensures r.Err? <==> !Renderable(v)
    ensures r.Ok? ==> '"' !in r.value.thumbnailAlt && Unescape(r.value.thumbnailAlt) == v.title
    ensures r.Ok? ==> '"' !in r.value.avatarAlt && Unescape(r.value.avatarAlt) == v.author.name
  {
    match RenderCard(playerPage, v, featured, ageMs, encode)
    case Err(e) => Err(e)
    case Ok(card) => Ok(card.(thumbnailAlt := EscapeAttribute(v.title), avatarAlt := EscapeAttribute(v.author.name)))
  }

  /** The corrected card differs from the card as written only in the two
      `alt` texts. */
  lemma SafeCardDiffersOnlyInAlts(playerPage: string, v: Video, featured: bool, ageMs: int, encode: string -> string)
    requires Renderable(v)
    ensures var c := RenderSafeCard(playerPage, v, featured, ageMs, encode).value;
      c.(thumbnailAlt := "", avatarAlt := "") ==
        RenderCard(playerPage, v, featured, ageMs, encode).value.(thumbnailAlt := "", avatarAlt := "")
  {
  }

  /** Whatever markup follows the closing quote, the `alt` values of the
      corrected card read back as the whole title and the whole name. */
  lemma SafeCardAltsStayInAttribute(playerPage: string, v: Video, featured: bool, ageMs: int, encode: string -> string, after: string)
    requires Renderable(v)
    ensures var c := RenderSafeCard(playerPage, v, featured, ageMs, encode).value;
      && Unescape(QuotedValue(c.thumbnailAlt + "\"" + after)) == v.title
      && Unescape(QuotedValue(c.avatarAlt + "\"" + after)) == v.author.name
  {
    var c := RenderSafeCard(playerPage, v, featured, ageMs, encode).value;
    QuotedValueStopsAtQuote(c.thumbnailAlt, after);
    QuotedValueStopsAtQuote(c.avatarAlt, after);
  }

  /** The built-in featured entries are local files: their player links
      carry `type=local`. */
  lemma FeaturedVideosPlayLocally(playerPage: string, encode: string -> string)
    ensures forall i :: 0 <= i < |FeaturedVideos| ==>
      FeaturedVideos[i].id.Some? &&
      EndsWith(PlayerUrl(playerPage, FeaturedVideos[i].id.value, FeaturedVideos[i].title, encode), "&type=local")
  {
    forall i | 0 <= i < |FeaturedVideos|
      ensures !IsYouTubeVideo(FeaturedVideos[i].id.value)
    {
      assert |FeaturedVideos[i].id.value| < 11;
    }
  }

  /** An eleven-character local file name without a dot is routed to the
      YouTube player, and `getVideoId` also accepts it as an ID. */
  lemma ElevenCharacterNameIsYouTube(id: string)
    requires |id| == 11 && '.' !in id
    ensures MediaType(id) == "youtube"
    ensures GetVideoId(Some(id)) == Some(id)
  {
  }
}

=== FILE: runs.dfy ===
/** Whole load sequences. `Run` plays the event loop for the loader: it
    settles the fetch in flight with the next outcome and, when that
    schedules a retry, lets the timer fire, until nothing is in flight any
    more. The lemmas state what a sequence of outcomes leaves behind. */
module LoaderRuns {
  import opened Common
  import opened Configuration
  import opened Videos
  import opened Catalog
  import opened VideoLoader

  /** The state a run ends in, the delays of the retries it scheduled, and
      how many attempts settled. */
  datatype Trace = Trace(final: State, delays: seq<int>, attempts: nat)

  function Run(s: State, outcomes: seq<Fetch>): (tr: Trace)
    ensures tr.attempts <= |outcomes|
    ensures |tr.delays| <= tr.attempts
    decreases |outcomes|, 1
  {
    if !s.isLoading || outcomes == [] then Trace(s, [], 0)
    else Attempt(s, outcomes[0], outcomes[1..])
  }

  /** One attempt in flight settles with `outcome`; a scheduled retry
      fires and the run goes on with `rest`. */
  function Attempt(s: State, outcome: Fetch, rest: seq<Fetch>): (tr: Trace)
    requires s.isLoading
    ensures 1 <= tr.attempts <= |rest| + 1
    ensures |tr.delays| <= tr.attempts
    decreases |rest| + 1, 0
  {
    var t := Settle(s, outcome);
    if t.timers == [] then Trace(t, [], 1)
    else
      var next := Run(FireRetry(t), rest);
      Trace(next.final, [t.timers[0].delayMs] + next.delays, 1 + next.attempts)
  }

  /** Every state a run passes through keeps the invariant, so in
      particular the featured entries stay first whatever the fetches
      return. */
  lemma {:induction false} RunPreservesInv(s: State, outcomes: seq<Fetch>)
    requires Inv(s)
    ensures Inv(Run(s, outcomes).final)
    decreases |outcomes|
  {
    if s.isLoading && outcomes != [] {
      var t := Settle(s, outcomes[0]);
      SettlePreservesInv(s, outcomes[0]);
      if t.timers != [] {
        FireRetryPreservesInv(t);
        RunPreservesInv(FireRetry(t), outcomes[1..]);
      }
    }
  }

  function Max0(x: int): nat {
    if x < 0 then 0 else x
  }

  /** The retry delays `1000 * (from + 1)`, ..., `1000 * (from + m)`. */
  function Delays(from: int, m: nat): (d: seq<int>)
    ensures |d| == m && forall i :: 0 <= i < m ==> d[i] == 1000 * (from + i + 1)
  {
    seq(m, i => 1000 * (from + i + 1))
  }

  lemma DelaysStep(from: int, m: nat)
    requires m >= 1
    ensures Delays(from, m) == [1000 * (from + 1)] + Delays(from + 1, m - 1)
  {
  }

  lemma RepeatStep<T>(x: T, n: nat)
    requires n >= 1
    ensures Repeat(x, n) == [x] + Repeat(x, n - 1)
  {
  }

  /** From an attempt in flight, a fetch that keeps failing runs every
      remaining retry and then shows the error view: one settled attempt
      per remaining retry plus one, delays growing by one second each, one
      placeholder left per retry. */
  lemma {:induction false} FailingRun(s: State, n: nat)
    requires s.isLoading && s.timers == [] && 0 <= s.attempt
    requires n > Max0(s.config.errorRetries - s.attempt)
    ensures var tr := Run(s, Repeat(Fail, n));
      var m := Max0(s.config.errorRetries - s.attempt);
      && tr.attempts == m + 1
      && tr.delays == Delays(s.attempt, m)
      && tr.final.container == s.container + Repeat(Loading, m) + [ErrorView(ExhaustedMessage)]
      && !tr.final.isLoading && tr.final.timers == []
      && tr.final.videosData == s.videosData
    decreases n
  {
    var t := Settle(s, Fail);
    FailureSchedulesRetry(s);
    var m := Max0(s.config.errorRetries - s.attempt);
    RepeatStep(Fail, n);
    if s.attempt < s.config.errorRetries {
      var u := FireRetry(t);
      assert u.container == s.container + [Loading] && u.attempt == s.attempt + 1;
      FailingRun(u, n - 1);
      DelaysStep(s.attempt, m);
      RepeatStep(Loading, m);
      assert s.container + [Loading] + Repeat(Loading, m - 1) == s.container + Repeat(Loading, m);
    } else {
      assert m == 0;
    }
  }

  /** One failed attempt below the retry limit: the run records its delay
      and continues from the retried attempt, which has one more
      placeholder and nothing scheduled. */
  lemma RetryStep(s: State, rest: seq<Fetch>)
    requires s.isLoading && s.timers == [] && s.attempt < s.config.errorRetries
    ensures var u := FireRetry(Settle(s, Fail));
      && u.isLoading && u.timers == [] && u.attempt == s.attempt + 1
      && u.container == s.container + [Loading]
      && u.config == s.config && u.videosData == s.videosData
      && var tr := Run(u, rest);
         Run(s, [Fail] + rest) == Trace(tr.final, [1000 * (s.attempt + 1)] + tr.delays, 1 + tr.attempts)
  {
    FailureSchedulesRetry(s);
    assert ([Fail] + rest)[1..] == rest;
  }

  /** A successful attempt ends the run. */
  lemma SuccessStep(s: State, vs: seq<Video>, data: seq<Video>)
    requires s.isLoading && s.timers == []
    requires NormalizeCatalog(s.config.thumbnailQuality, vs) == Ok(data)
    requires forall i :: 0 <= i < |data| ==> data[i].id.Some?
    ensures var tr := Run(s, [Fetched(vs)]);
      && tr.attempts == 1 && tr.delays == []
      && tr.final.container == RemoveFirstLoading(s.container) + DynamicItems(data)
      && tr.final.videosData == data
      && !tr.final.isLoading && tr.final.timers == []
  {
    SuccessRendersCatalog(s, vs, data);
  }

  /** The attempt in flight after `f` failed retries from `s`: `f`
      attempts later, one placeholder more per failure, everything else as
      it was. */
  function AfterFailures(s: State, f: nat): State {
    s.(attempt := s.attempt + f, container := s.container + Repeat(Loading, f))
  }

  /** A failed attempt below the retry limit hands the next attempt the
      same state, one attempt later and with one more placeholder. */
  lemma RetryState(s: State)
    requires s.isLoading && s.timers == [] && s.attempt < s.config.errorRetries
    ensures FireRetry(Settle(s, Fail)) == AfterFailures(s, 1)
  {
  }

  /** `f` failures within the retry limit, whatever follows them: the run
      is the run of the rest from the state `f` attempts later, behind `f`
      settled attempts and retry delays of 1, 2, ..., `f` seconds after the
      current attempt. */
  lemma {:induction false} FailuresPrefix(s: State, f: nat, rest: seq<Fetch>)
    requires s.isLoading && s.timers == [] && 0 <= s.attempt
    requires s.attempt + f <= s.config.errorRetries
    ensures var tr := Run(AfterFailures(s, f), rest);
      Run(s, Repeat(Fail, f) + rest) == Trace(tr.final, Delays(s.attempt, f) + tr.delays, f + tr.attempts)
    decreases f
  {
    if f == 0 {
      assert Repeat(Fail, 0) + rest == rest;
      assert AfterFailures(s, 0) == s;
    } else {
      var u := FireRetry(Settle(s, Fail));
      var tail := Repeat(Fail, f - 1) + rest;
      RepeatStep(Fail, f);
      assert Repeat(Fail, f) + rest == [Fail] + tail;
      RetryStep(s, tail);
      RetryState(s);
      FailuresPrefix(u, f - 1, rest);
      assert AfterFailures(u, f - 1) == AfterFailures(s, f) by {
        PlaceholdersShift(s.container, f);
      }
      DelaysStep(s.attempt, f);
    }
  }

  /** The placeholder a failed attempt leaves counts towards those of the
      rest of the run. */
  lemma PlaceholdersShift(c: seq<Item>, f: nat)
    requires f >= 1
    ensures (c + Repeat(Loading, 1)) + Repeat(Loading, f - 1) == c + Repeat(Loading, f)
  {
    RepeatStep(Loading, f);
    assert Repeat(Loading, 1) == [Loading];
  }

  /** What `f` failures and then a good catalog leave behind, from an
      attempt in flight: `f + 1` attempts, delays of 1, 2, ... seconds after
      the current attempt, the first placeholder of the grown container
      removed, the dynamic entries after it, and `videosData` replaced. */
  predicate SucceedsAfter(s: State, f: nat, vs: seq<Video>, data: seq<Video>) {
    var tr := Run(s, Repeat(Fail, f) + [Fetched(vs)]);
    && tr.attempts == f + 1
    && tr.delays == Delays(s.attempt, f)
    && tr.final.container == RemoveFirstLoading(s.container + Repeat(Loading, f)) + DynamicItems(data)
    && tr.final.videosData == data
    && !tr.final.isLoading && tr.final.timers == []
  }

  /** From an attempt in flight, `f` failures within the retry limit and
      then a catalog that normalises and renders: the first placeholder of
      the final container is removed, the dynamic entries follow in order,
      and `videosData` is the normalised catalog. */
  lemma FailuresThenSuccessRun(s: State, f: nat, vs: seq<Video>, data: seq<Video>)
    requires s.isLoading && s.timers == [] && 0 <= s.attempt
    requires s.attempt + f <= s.config.errorRetries
    requires NormalizeCatalog(s.config.thumbnailQuality, vs) == Ok(data)
    requires forall i :: 0 <= i < |data| ==> data[i].id.Some?
    ensures SucceedsAfter(s, f, vs, data)
  {
    FailuresPrefix(s, f, [Fetched(vs)]);
    SuccessStep(AfterFailures(s, f), vs, data);
  }

  /** Featured entries are never placeholders, so the first placeholder
      after them is the one removed. */
  lemma RemoveFirstLoadingAfterFeatured(fs: seq<Video>, k: nat)
    ensures RemoveFirstLoading(FeaturedItems(fs) + Repeat(Loading, k + 1)) == FeaturedItems(fs) + Repeat(Loading, k)
  {
    var c := FeaturedItems(fs) + Repeat(Loading, k + 1);
    var n := |fs|;
    assert c[n] == Loading;
    assert forall j :: 0 <= j < n ==> c[j] != Loading;
    assert LoadingIndex(c) == n;
    assert c[..n] == FeaturedItems(fs);
    assert c[n + 1..] == Repeat(Loading, k);
  }

  /** With `R` retries configured (a negative `R` counts as none) and a
      fetch that always fails, the loader makes `R + 1` attempts, waits
      1, 2, ..., R seconds between them, and ends with the featured entries,
      one placeholder per attempt and the error view. */
  lemma AlwaysFailingFetch(options: Options, initial: seq<Item>, n: nat)
    requires n > Max0(MakeConfig(options).errorRetries)
    ensures var tr := Run(Initialize(New(options, initial)), Repeat(Fail, n));
      var r := Max0(MakeConfig(options).errorRetries);
      && tr.attempts == r + 1
      && tr.delays == Delays(0, r)
      && tr.final.container == FeaturedItems(FeaturedVideos) + Repeat(Loading, r + 1) + [ErrorView(ExhaustedMessage)]
      && !tr.final.isLoading && tr.final.timers == []
  {
    var s := Initialize(New(options, initial));
    InitializeEstablishesInv(options, initial);
    FailingRun(s, n);
    var r := Max0(MakeConfig(options).errorRetries);
    RepeatStep(Loading, r + 1);
    assert FeaturedItems(FeaturedVideos) + [Loading] + Repeat(Loading, r)
        == FeaturedItems(FeaturedVideos) + Repeat(Loading, r + 1);
  }

  /** Three retries, the default when the option is absent or 0: four
      attempts, waits of one, two and three seconds. */
  lemma ThreeRetriesMeanFourAttempts(options: Options, initial: seq<Item>)
    requires options.errorRetries in {None, Some(0), Some(3)}
    ensures var tr := Run(Initialize(New(options, initial)), Repeat(Fail, 4));
      && tr.attempts == 4
      && tr.delays == [1000, 2000, 3000]
  {
    assert MakeConfig(options).errorRetries == 3;
    AlwaysFailingFetch(options, initial, 4);
    assert Delays(0, 3) == [1000, 2000, 3000];
  }

  /** `f` failed attempts followed by a successful one leave `f`
      placeholders between the featured and the dynamic entries: success
      removes only the first one. */
  lemma FailuresLeavePlaceholders(options: Options, initial: seq<Item>, f: nat, vs: seq<Video>, data: seq<Video>)
    requires f <= MakeConfig(options).errorRetries
    requires NormalizeCatalog(MakeConfig(options).thumbnailQuality, vs) == Ok(data)
    requires forall i :: 0 <= i < |data| ==> data[i].id.Some?
    ensures var tr := Run(Initialize(New(options, initial)), Repeat(Fail, f) + [Fetched(vs)]);
      && tr.attempts == f + 1
      && tr.final.container == FeaturedItems(FeaturedVideos) + Repeat(Loading, f) + DynamicItems(data)
      && tr.final.videosData == data
  {
    var s := Initialize(New(options, initial));
    InitializeEstablishesInv(options, initial);
    FailuresThenSuccessRun(s, f, vs, data);
    RepeatStep(Loading, f + 1);
    assert s.container + Repeat(Loading, f) == FeaturedItems(FeaturedVideos) + Repeat(Loading, f + 1);
    RemoveFirstLoadingAfterFeatured(FeaturedVideos, f);
  }
}

=== FILE: theme.dfy ===
/** The theme switcher: the chosen theme, the `data-theme` attribute of the
    document element, the icon shown on the toggle button, and the
    key/value store that keeps the choice between visits. */
module Theme {
  const Light := "light"
  const Dark := "dark"
  const ThemeKey := "theme"

  datatype ThemeState = ThemeState(
    theme: string,
    dataTheme: string,
    icon: string,
    store: map<string, string>)

  /** The icon offers the other theme: the sun while dark, the moon
      otherwise. */
  function Icon(theme: string): (icon: string)
    ensures icon == "light_mode" <==> theme == Dark
    ensures icon == "dark_mode" <==> theme != Dark
  {
    if theme == Dark then "light_mode" else "dark_mode"
  }

  /** The attribute, the button and the theme agree. */
  predicate Consistent(t: ThemeState) {
    t.dataTheme == t.theme && t.icon == Icon(t.theme)
  }

  /** The stored theme when there is a non-empty one, otherwise light. Any
      non-empty stored string is taken as it is. */
  function Construct(store: map<string, string>): (t: ThemeState)
    ensures Consistent(t) && t.store == store
    ensures ThemeKey in store && store[ThemeKey] != "" ==> t.theme == store[ThemeKey]
    ensures !(ThemeKey in store && store[ThemeKey] != "") ==> t.theme == Light
  {
    var theme := if ThemeKey in store && store[ThemeKey] != "" then store[ThemeKey] else Light;
    ThemeState(theme, theme, Icon(theme), store)
  }

  /** Light becomes dark and anything else becomes light; the new theme is
      written to the attribute, the button and the store. */
  function Toggle(t: ThemeState): (u: ThemeState)
    ensures Consistent(u)
    ensures u.theme == Dark <==> t.theme == Light
    ensures u.theme == Light <==> t.theme != Light
    ensures ThemeKey in u.store && u.store[ThemeKey] == u.theme
    ensures forall k :: k in t.store && k != ThemeKey ==> k in u.store && u.store[k] == t.store[k]
    ensures u.store.Keys == t.store.Keys + {ThemeKey}
  {
    var theme := if t.theme == Light then Dark else Light;
    ThemeState(theme, theme, Icon(theme), t.store[ThemeKey := theme])
  }

  /** Toggling twice restores light or dark, and the store then holds it. */
  lemma ToggleTwice(t: ThemeState)
    requires t.theme == Light || t.theme == Dark
    ensures Toggle(Toggle(t)).theme == t.theme
    ensures Toggle(Toggle(t)).store[ThemeKey] == t.theme
  {
  }

  /** A stored theme other than light or dark is shown once and then lost:
      the first toggle goes to light, the second to dark. */
  lemma UnknownThemeFallsBackToLight(store: map<string, string>)
    requires ThemeKey in store && store[ThemeKey] !in {"", Light, Dark}
    ensures Construct(store).theme == store[ThemeKey]
    ensures Construct(store).icon == "dark_mode"
    ensures Toggle(Construct(store)).theme == Light
    ensures Toggle(Toggle(Construct(store))).theme == Dark
  {
  }

  /** A toggle is remembered: constructing from the store it leaves behind
      gives the toggled theme back. */
  lemma ToggleIsRemembered(t: ThemeState)
    ensures Construct(Toggle(t).store).theme == Toggle(t).theme
    ensures Construct(Toggle(t).store) == Toggle(t)
  {
  }
}

=== FILE: videoloader.dfy ===
/** The catalog loader as a state machine (videoloader.js lines 56-65 and
    110-170). The rendering container is a sequence of items; the
    asynchronous `loadVideos` is split at its `await` into `LoadVideos`
    (up to the fetch) and `Settle` (the fetch outcome and everything after
    it); `setTimeout` becomes a queue of scheduled retries that `FireRetry`
    takes from. Fetch outcomes are inputs. */
module VideoLoader {
  import opened Common
  import opened Configuration
  import opened Videos
  import opened Catalog
  import opened Render

  /** An element of the container: a featured card, a dynamic card, the
      `Loading videos...` placeholder, or the terminal error view. */
  datatype Item = Featured(video: Video) | Dynamic(video: Video) | Loading | ErrorView(message: string)

  /** A retry scheduled with `setTimeout`: its delay and the retry count it
      passes to `loadVideos`. */
  datatype Retry = Retry(delayMs: int, attempt: int)

  /** What one fetch yields: a failure (network error, non-success status,
      unreadable JSON) or the `videos` list of the document. */
  datatype Fetch = Fail | Fetched(videos: seq<Video>)

  datatype State = State(
    config: Config,
    featured: seq<Video>,
    container: seq<Item>,
    videosData: seq<Video>,
    isLoading: bool,
    attempt: int,
    timers: seq<Retry>)

  const ExhaustedMessage: string := "Failed to load videos after multiple attempts"

  function FeaturedItems(vs: seq<Video>): (r: seq<Item>)
    ensures |r| == |vs| && forall i :: 0 <= i < |vs| ==> r[i] == Featured(vs[i])
  {
    seq(|vs|, i requires 0 <= i < |vs| => Featured(vs[i]))
  }

  function DynamicItems(vs: seq<Video>): (r: seq<Item>)
    ensures |r| == |vs| && forall i :: 0 <= i < |vs| ==> r[i] == Dynamic(vs[i])
  {
    seq(|vs|, i requires 0 <= i < |vs| => Dynamic(vs[i]))
  }

  /** The constructor: the configuration is built from the options bag
      with its defaults, the container keeps whatever it held, nothing is
      loading and nothing is scheduled. */
  function New(options: Options, initial: seq<Item>): (s: State)
    ensures s.config == MakeConfig(options) && s.container == initial
    ensures s.config.errorRetries != 0
    ensures !s.isLoading && s.attempt == 0 && s.timers == [] && s.videosData == [] && s.featured == FeaturedVideos
  {
    State(MakeConfig(options), FeaturedVideos, initial, [], false, 0, [])
  }

  /** `renderConstantVideos()`: clears the container and appends the
      featured entries in their fixed order. */
  function RenderConstantVideos(s: State): (t: State)
    ensures t.container == FeaturedItems(s.featured)
    ensures t.(container := s.container) == s
  {
    s.(container := FeaturedItems(s.featured))
  }

  /** `loadVideos(retryCount)` up to the `await fetch(...)`: a call while a
      fetch is in flight does nothing; otherwise the flag is set and one
      placeholder is appended. */
  function LoadVideos(s: State, retryCount: int): (t: State)
    ensures s.isLoading ==> t == s
    ensures !s.isLoading ==> t.isLoading && t.attempt == retryCount && t.container == s.container + [Loading]
    ensures !s.isLoading ==> t.(isLoading := false, attempt := s.attempt, container := s.container) == s
  {
    if s.isLoading then s
    else s.(isLoading := true, attempt := retryCount, container := s.container + [Loading])
  }

  /** `initialize()`: the featured entries replace whatever the container
      held and, unless a fetch is already in flight, attempt 0 starts
      behind one placeholder. */
  function Initialize(s: State): (t: State)
    ensures t.isLoading
    ensures t.container == FeaturedItems(s.featured) + (if s.isLoading then [] else [Loading])
    ensures !s.isLoading ==> t.attempt == 0
    ensures s.isLoading ==> t.attempt == s.attempt
    ensures t.config == s.config && t.featured == s.featured && t.videosData == s.videosData && t.timers == s.timers
  {
    LoadVideos(RenderConstantVideos(s), 0)
  }

  /** Index of the first placeholder, `|c|` when there is none: the element
      `container.querySelector('.loading')` finds as long as no card holds an
      element of class `loading` (cards are opaque here). */
  function LoadingIndex(c: seq<Item>): (i: nat)
    ensures i <= |c|
    ensures i < |c| ==> c[i] == Loading
    ensures forall j :: 0 <= j < i ==> c[j] != Loading
  {
    if c == [] || c[0] == Loading then 0 else 1 + LoadingIndex(c[1..])
  }

  /** Removes the first placeholder, if any, and nothing else. */
  function RemoveFirstLoading(c: seq<Item>): (r: seq<Item>)
    ensures Loading !in c ==> r == c
    ensures Loading in c ==> |r| == |c| - 1
  {
    var i := LoadingIndex(c);
    if i == |c| then c else c[..i] + c[i + 1..]
  }

  /** With a placeholder present, the result is the container with the
      placeholder at the first position holding one cut out. */
  lemma RemoveFirstLoadingCutsFirst(c: seq<Item>)
    requires Loading in c
    ensures exists i :: 0 <= i < |c| && c[i] == Loading && Loading !in c[..i] && RemoveFirstLoading(c) == c[..i] + c[i + 1..]
  {
    var i := LoadingIndex(c);
    assert Loading !in c[..i];
  }

  /** Number of leading entries `forEach` renders before one throws. */
  function RenderablePrefix(vs: seq<Video>): (k: nat)
    ensures k <= |vs|
    ensures forall j :: 0 <= j < k ==> Renderable(vs[j])
    ensures k < |vs| ==> !Renderable(vs[k])
  {
    if vs == [] || !Renderable(vs[0]) then 0 else 1 + RenderablePrefix(vs[1..])
  }

  /** The `catch` and `finally` blocks, entered with the container as the
      failed attempt left it. */
  function Recover(s: State, container: seq<Item>): (t: State)
    ensures !t.isLoading
    ensures s.attempt < s.config.errorRetries ==>
      t.container == container && t.timers == s.timers + [Retry(1000 * (s.attempt + 1), s.attempt + 1)]
    ensures s.config.errorRetries <= s.attempt ==>
      t.container == container + [ErrorView(ExhaustedMessage)] && t.timers == s.timers
    ensures t.config == s.config && t.featured == s.featured && t.videosData == s.videosData && t.attempt == s.attempt
  {
    if s.attempt < s.config.errorRetries then
      s.(container := container, isLoading := false,
         timers := s.timers + [Retry(1000 * (s.attempt + 1), s.attempt + 1)])
    else
      s.(container := container + [ErrorView(ExhaustedMessage)], isLoading := false)
  }

  /** `loadVideos` after its fetch settles with `outcome`. */
  function Settle(s: State, outcome: Fetch): (t: State)
    requires s.isLoading
    ensures !t.isLoading
    ensures t.config == s.config && t.featured == s.featured && t.attempt == s.attempt
    ensures t.timers == s.timers || t.timers == s.timers + [Retry(1000 * (s.attempt + 1), s.attempt + 1)]
    ensures t.timers != s.timers ==> s.attempt < s.config.errorRetries
  {
    match outcome
    case Fail => Recover(s, s.container)
    case Fetched(vs) =>
      match NormalizeCatalog(s.config.thumbnailQuality, vs)
      case Err(_) => Recover(s, s.container)
      case Ok(data) =>
        var k := RenderablePrefix(data);
        var c := RemoveFirstLoading(s.container) + DynamicItems(data[..k]);
        if k < |data| then Recover(s.(videosData := data), c)
        else s.(videosData := data, container := c, isLoading := false)
  }

  /** The timer of the earliest scheduled retry fires. */
  function FireRetry(s: State): (t: State)
    requires s.timers != []
    ensures t.timers == s.timers[1..]
    ensures !s.isLoading ==> t.isLoading && t.attempt == s.timers[0].attempt && t.container == s.container + [Loading]
    ensures t.config == s.config && t.featured == s.featured && t.videosData == s.videosData
  {
    LoadVideos(s.(timers := s.timers[1..]), s.timers[0].attempt)
  }

  // ---------------------------------------------------------------------
  // One settled attempt

  /** A failed attempt below the retry limit schedules the next attempt
      after `1000 * (attempt + 1)` ms and leaves the container alone;
      otherwise it appends one error view and schedules nothing. */
  lemma FailureSchedulesRetry(s: State)
    requires s.isLoading
    ensures var t := Settle(s, Fail);
      && t.videosData == s.videosData
      && (s.attempt < s.config.errorRetries ==>
            t.container == s.container && t.timers == s.timers + [Retry(1000 * (s.attempt + 1), s.attempt + 1)])
      && (s.attempt >= s.config.errorRetries ==>
            t.container == s.container + [ErrorView(ExhaustedMessage)] && t.timers == s.timers)
  {
  }

  /** A catalog whose normalisation throws is handled exactly like a failed
      fetch: the previous `videosData` stays and the placeholder stays. */
  lemma UnnormalisableCatalogIsAFailure(s: State, vs: seq<Video>)
    requires s.isLoading
    requires exists i :: 0 <= i < |vs| && vs[i].thumbnail == "" && Identifiers.GetVideoId(vs[i].id).None?
    ensures Settle(s, Fetched(vs)) == Settle(s, Fail)
  {
    var i :| 0 <= i < |vs| && vs[i].thumbnail == "" && Identifiers.GetVideoId(vs[i].id).None?;
    assert NormalizeEntry(s.config.thumbnailQuality, vs[i]).Err?;
  }

  /** A successful attempt replaces `videosData` by the normalised catalog,
      removes only the first placeholder and appends the dynamic entries in
      order. */
  lemma SuccessRendersCatalog(s: State, vs: seq<Video>, data: seq<Video>)
    requires s.isLoading
    requires NormalizeCatalog(s.config.thumbnailQuality, vs) == Ok(data)
    requires forall i :: 0 <= i < |data| ==> data[i].id.Some?
    ensures var t := Settle(s, Fetched(vs));
      && t.videosData == data
      && t.container == RemoveFirstLoading(s.container) + DynamicItems(data)
      && t.timers == s.timers
  {
    var k := RenderablePrefix(data);
    assert k == |data|;
    assert data[..k] == data;
  }

  /** An entry that kept its thumbnail but whose identifier normalised to
      `null` makes rendering throw: the entries before it stay rendered,
      `videosData` is already replaced, the placeholder is gone, and the
      attempt is then handled as a failure. */
  lemma RenderCrashIsAFailure(s: State, vs: seq<Video>, data: seq<Video>, k: nat)
    requires s.isLoading
    requires NormalizeCatalog(s.config.thumbnailQuality, vs) == Ok(data)
    requires k < |data| && data[k].id.None?
    requires forall j :: 0 <= j < k ==> data[j].id.Some?
    ensures Settle(s, Fetched(vs)) == Recover(s.(videosData := data), RemoveFirstLoading(s.container) + DynamicItems(data[..k]))
    ensures vs[k].thumbnail != ""
  {
    assert NormalizeEntry(s.config.thumbnailQuality, vs[k]) == Ok(data[k]);
    var p := RenderablePrefix(data);
    assert !Renderable(data[k]);
    assert p <= k;
    assert p == k;
  }

  // ---------------------------------------------------------------------
  // Invariant of every reachable state

  predicate NoFeatured(items: seq<Item>) {
    forall j :: 0 <= j < |items| ==> !items[j].Featured?
  }

  /** The container starts with the featured entries and holds no other
      featured entry. */
  ghost predicate FeaturedPrefix(c: seq<Item>, fs: seq<Video>) {
    |fs| <= |c| && c[..|fs|] == FeaturedItems(fs) && NoFeatured(c[|fs|..])
  }

  /** The featured entries form a prefix of the container and appear nowhere
      else; retries are scheduled one at a time, never while a fetch is in
      flight, with the delay `1000 * attempt` and an attempt within the
      retry limit. */
  ghost predicate Inv(s: State) {
    && FeaturedPrefix(s.container, s.featured)
    && |s.timers| <= 1
    && (s.isLoading ==> s.timers == [] && 0 <= s.attempt)
    && (forall j :: 0 <= j < |s.timers| ==>
          s.timers[j].delayMs == 1000 * s.timers[j].attempt && 1 <= s.timers[j].attempt <= s.config.errorRetries)
  }

  /** Initialisation shows the featured entries followed by one placeholder
      and starts attempt 0. */
  lemma InitializeEstablishesInv(options: Options, initial: seq<Item>)
    ensures var s := Initialize(New(options, initial));
      && Inv(s) && s.isLoading && s.attempt == 0
      && s.container == FeaturedItems(FeaturedVideos) + [Loading]
  {
    var s := Initialize(New(options, initial));
    assert s.container[..|s.featured|] == FeaturedItems(FeaturedVideos);
    assert s.container[|s.featured|..] == [Loading];
  }

  lemma FeaturedPrefixAppend(c: seq<Item>, fs: seq<Video>, extra: seq<Item>)
    requires FeaturedPrefix(c, fs) && NoFeatured(extra)
    ensures FeaturedPrefix(c + extra, fs)
  {
    var n := |fs|;
    assert (c + extra)[..n] == c[..n];
    assert (c + extra)[n..] == c[n..] + extra;
  }

  lemma FeaturedPrefixRemoveLoading(c: seq<Item>, fs: seq<Video>)
    requires FeaturedPrefix(c, fs)
    ensures FeaturedPrefix(RemoveFirstLoading(c), fs)
  {
    var n := |fs|;
    var i := LoadingIndex(c);
    assert forall j :: 0 <= j < n ==> c[j] == c[..n][j];
    if i < |c| {
      assert n <= i && c[n..][i - n] == Loading;
      var r := c[..i] + c[i + 1..];
      assert r[..n] == c[..n];
      assert r[n..] == c[n..][..i - n] + c[n..][i - n + 1..];
    }
  }

  /** Settling keeps the featured entries first: it only removes a
      placeholder and appends dynamic entries or an error view. */
  lemma SettlePreservesInv(s: State, outcome: Fetch)
    requires Inv(s) && s.isLoading
    ensures Inv(Settle(s, outcome))
  {
    var t := Settle(s, outcome);
    FeaturedPrefixAppend(s.container, s.featured, [ErrorView(ExhaustedMessage)]);
    match outcome
    case Fail =>
    case Fetched(vs) =>
      match NormalizeCatalog(s.config.thumbnailQuality, vs)
      case Err(_) =>
      case Ok(data) =>
        var k := RenderablePrefix(data);
        var r := RemoveFirstLoading(s.container);
        var c := r + DynamicItems(data[..k]);
        FeaturedPrefixRemoveLoading(s.container, s.featured);
        FeaturedPrefixAppend(r, s.featured, DynamicItems(data[..k]));
        FeaturedPrefixAppend(c, s.featured, [ErrorView(ExhaustedMessage)]);
  }

  /** A firing retry starts the next attempt and keeps the featured
      entries first. */
  lemma FireRetryPreservesInv(s: State)
    requires Inv(s) && s.timers != []
    ensures Inv(FireRetry(s))
    ensures FireRetry(s).isLoading && FireRetry(s).container == s.container + [Loading]
  {
    FeaturedPrefixAppend(s.container, s.featured, [Loading]);
  }

  /** In every state satisfying the invariant the featured entries come
      first, in their fixed order, and before every dynamic entry. */
  lemma FeaturedBeforeDynamic(s: State)
    requires Inv(s)
    ensures forall i :: 0 <= i < |s.featured| ==> s.container[i] == Featured(s.featured[i])
    ensures forall i, j :: 0 <= i < |s.container| && 0 <= j < |s.container| ==>
      (s.container[i].Featured? && s.container[j].Dynamic? ==> i < j)
  {
    var n := |s.featured|;
    assert forall i :: 0 <= i < n ==> s.container[i] == s.container[..n][i];
    assert forall i :: n <= i < |s.container| ==> s.container[i] == s.container[n..][i - n];
  }
}

=== FILE: videos.dfy ===
/** The video record of the catalog (one element of `videos` in the
    fetched JSON document) and the two built-in featured entries
    (videoloader.js lines 16-41).

    An optional string field that is absent in the JSON document is
    represented by the empty string: the loader only ever tests such fields
    for truthiness, and both are falsy. The identifier is an `Option`
    because normalisation can turn it into `null`. */
module Videos {
  import opened Common

  datatype Author = Author(name: string, avatar: string)

  datatype Video = Video(
    id: Option<string>,
    title: string,
    thumbnail: string,
    duration: string,
    views: int,
    uploadDate: string,
    author: Author)

  const FeaturedVideos: seq<Video> := [
    Video(Some("vid.mp4"), "Angel!?", "th1.jpg", "3:32", 1234567, "2024-10-12",
          Author("Featured Angel", "profile.jpg")),
    Video(Some("vid2.mp4"), "Do not beat me for this", "th3.jpeg", "0:18", 891011, "2024-10-12",
          Author("Featured chudail", "profile.jpg"))
  ]
}
